=== FILE: README.md ===
# Attendify backend: a verified model of its attendance core

Attendify is an Express/Mongoose service that tracks attendance by QR code.
A teacher opens a time-boxed **session** for a class, and the QR code carries
the session's token. A student who scans it gets an **attendance** record,
provided they are on the class **roster**, the session is still open and they
have not already been marked. Teachers manage rosters, read reports, histories
and per-student tallies. Students register accounts that claim their roster
entries.

This project models that core in Dafny:

- Each Mongo collection is a sequence in natural (insertion) order, held in a
  `Database` object (`store.dfy`). The collections are sessions, attendance
  records, students (roster entries), users and classes.
- `_id`s come from a counter.
- `findOne`, `find` and `countDocuments` are `FirstIndex`, `Filter` and `Count`
  (`queries.dfy`).
- Each controller operation that writes is a module-level method that takes
  the `Database` object and `modifies` it. Its contract states the whole new
  state, usually through a pure function that also carries the properties.
- Read-only operations are functions, or methods that change nothing.
- The clock is a parameter `now` in milliseconds.
- The random session token and the QR image are inputs. The image is `None`
  when the encoder throws.

Properties proved:

- At most one active session per class is preserved by every session
  operation.
- At most one attendance record per (student, session) is preserved by
  marking and removal.
- The schemas' unique keys are preserved by every write: session `_id` and
  `sessionId`, roster `_id` and (enrollmentNumber, class, teacher), user `_id`;
  every roster entry has the schema's required non-empty name and enrollment number.
- The error outcomes come in their order, with each one's exact condition.
- Expiry boundaries are strict: a session is still open at exactly
  `expiresAt`.
- Ending a session is idempotent.
- The compensating delete in registration restores the user store.

Modules:

- `Models` (`models.dfy`): the schema records of models/Session.js,
  models/Attendance.js and models/Student.js, plus users and classes, and the
  schema defaults, and JavaScript truthiness of optional strings.
- `Queries` (`queries.dfy`): the query primitives and their algebra. This
  covers appending, filtering twice, congruence, counting, and which orders
  and unique keys survive deletion.
- `Store` (`store.dfy`): the database object, its well-formedness (the
  schemas' unique indexes), the no-duplicate-marks invariant of the
  attendance records, and the roster insert shared by two controllers.
- `SessionController`, `AttendanceController`, `ClassController`,
  `StudentController`, `AuthController`: one module per controller file.

## Model

| member | source | states |
|---|---|---|
| SessionController.ExpiresAt | controllers/sessionController.js:16-19 | a missing or zero duration means 60 minutes; the expiry is after `now` exactly when the duration defaulted or is non-negative, so a negative duration yields a session that is already expired |
| SessionController.EffectiveDuration | controllers/sessionController.js:17 | the fallback to 60: 60 for a missing or zero duration, the given one otherwise; never zero |
| SessionController.Deactivated | controllers/sessionController.js:33 | `updateMany`: same length, no session of the class is left active, only `isActive` changes, and sessions of other classes or already inactive ones are untouched |
| SessionController.LatestActive | controllers/sessionController.js:66-73 | none exactly when the class has no active session; otherwise an active session with the greatest `createdAt` (ties: the later-inserted, a modelling choice) |
| SessionController.ReadActive | controllers/sessionController.js:62-87 | not-found exactly when no session of the class is active; an `Ok` answer is active, not expired and the most recent; "expired" only when an active session's `expiresAt` is before `now` |
| SessionController.AfterReadActive | controllers/sessionController.js:76-82 | a read that does not report "expired" leaves the sessions unchanged; one that does flips only the chosen session inactive |
| SessionController.EndedStore | controllers/sessionController.js:96-100 | only `isActive` changes; sessions with another token are untouched; the first session with the token ends up inactive |
| SessionController.EndResponse | controllers/sessionController.js:96-110 | not-found exactly when no session has the token; otherwise the updated session, which has the token and is inactive |
| SessionController.ActiveFlagKeepsUnique | models/Session.js:14-18 | changing only `isActive` keeps session `_id`s and `sessionId`s unique |
| SessionController.DeactivatingKeepsAtMostOne | controllers/sessionController.js:33 | clearing `isActive` flags keeps at most one active session per class |
| SessionController.CreatedIsSoleActive | controllers/sessionController.js:33-44 | after deactivate-then-append, the new session is the only active session of its class |
| SessionController.CreationKeepsAtMostOne | controllers/sessionController.js:33-44 | deactivate-then-append keeps at most one active session per class |
| SessionController.ReadAfterCreate | controllers/sessionController.js:62-87 | right after creation, a read before expiry returns exactly the new session and changes nothing |
| SessionController.ExpiryBoundary | controllers/sessionController.js:76-80 | a read at exactly `expiresAt` returns the session; one millisecond later reports "expired" and flips it inactive |
| SessionController.ReadKeepsAtMostOne | controllers/sessionController.js:76-80 | the lazy expiry keeps at most one active session per class |
| SessionController.EndSessionIdempotent | controllers/sessionController.js:96-100 | ending a session twice gives the same store and the same answer as ending it once |
| SessionController.AppendKeepsUnique | models/Session.js:14-18 | appending a session with a fresh `_id` and an unused `sessionId` keeps the store well formed |
| SessionController.DeactivateClass | controllers/sessionController.js:33 | the store's sessions become `Deactivated(old, class)`; all other collections unchanged; the one-active invariant is kept |
| SessionController.CreateSession | models/Session.js:3-41 | `Session.create`: never an encoder failure; rejected exactly when a required string is empty, or when the `sessionId` is already used; otherwise appends the session with `isActive` true, `date` and `createdAt` now |
| SessionController.GenerateSessionQR | controllers/sessionController.js:8-57 | fails as an encoder failure exactly when the encoder threw, and then changes nothing; otherwise the class is deactivated first, and the insert fails exactly for an empty timing, token or image or a used token; on success the response echoes token, image, timing and expiry, the new session is the class's only active one, and the one-active invariant is kept |
| SessionController.GetActiveSession | controllers/sessionController.js:62-87 | answers `ReadActive` and leaves `AfterReadActive`; nothing else changes |
| SessionController.EndSession | controllers/sessionController.js:92-115 | answers `EndResponse` and leaves `EndedStore`; nothing else changes |
| AttendanceController.MarkOutcome | controllers/attendanceController.js:8-49 | the four rejections in order, each with its exact condition (no roster entry for the user; unknown token; inactive or `expiresAt < now`; a record for that student and session exists); success yields a `present` record whose class and teacher are the session's |
| AttendanceController.AppendUnmarkedKeepsNoDuplicates | controllers/attendanceController.js:27-42 | appending a record for an unmarked (student, session) keeps at most one record per pair |
| AttendanceController.MarkKeepsNoDuplicates | controllers/attendanceController.js:27-42 | a successful mark keeps at most one record per (student, session) |
| AttendanceController.SecondScanRejected | controllers/attendanceController.js:27-34 | after a successful scan, scanning the same token again, at any time, is rejected as already marked or expired |
| AttendanceController.ScanBoundary | controllers/attendanceController.js:23-25 | a scan at exactly `expiresAt` is not rejected as expired; one millisecond later it is |
| AttendanceController.CreateAttendance | models/Attendance.js:3-35 | appends one record with a fresh `_id`, `scanTime` and `createdAt` now; nothing else changes |
| AttendanceController.MarkAttendance | controllers/attendanceController.js:8-49 | answers `MarkOutcome`; on a rejection the records are unchanged, on success exactly that record is appended; no other collection changes; no duplicate marks is preserved |
| AttendanceController.SecondsLeft | controllers/attendanceController.js:69-79 | never negative; the floor of the remaining milliseconds over 1000 when not past expiry; zero exactly when fewer than 1000 ms remain |
| AttendanceController.QRForClass | controllers/attendanceController.js:54-92 | not-found exactly when no session of the class is active; otherwise the view is built from the latest active session: the null-image view exactly when its `SecondsLeft` is zero, and a live view carries that session's `SecondsLeft` as `expiresIn`, its QR image, token, class and timing |
| AttendanceController.QRExpiredUnderOneSecond | controllers/attendanceController.js:69-79 | for the class's latest active session, the null-image answer comes exactly when fewer than 1000 ms remain |
| AttendanceController.QRAgreesWithActiveRead | controllers/attendanceController.js:58-87 | the QR view agrees with the active-session read (same session, same not-found cases, an expired read shows the null image), yet it is a pure function and so never flips `isActive` |
| AttendanceController.AttendanceReport | controllers/attendanceController.js:97-123 | the report holds exactly the teacher's records that match the optional class, student and inclusive date bounds |
| AttendanceController.ReportBoundsInclusive | controllers/attendanceController.js:102-111 | a record scanned exactly at both bounds is reported; with no class, student or bound the report is exactly the teacher's records, in store order |
| AttendanceController.DisplayStatus | controllers/attendanceController.js:149 | "Present" exactly for status `present` |
| AttendanceController.ClassNameOf | controllers/attendanceController.js:152 | `r.class?.name`, else "Class": "Class" when the class does not exist, its name when it exists with a non-empty name; never empty, and any other value is the name of a class with that id |
| AttendanceController.SessionTimingOf | controllers/attendanceController.js:153 | `r.session?.lectureTiming`, else "": empty when the session does not exist, otherwise the first such session's timing |
| AttendanceController.Format | controllers/attendanceController.js:147-154 | one history line: id, scan time and creation time copied from the record, "Present" exactly for `present`, and the populated class name and session timing |
| AttendanceController.FormatAll | controllers/attendanceController.js:147-154 | `attendance.map(...)`: one history line per record, in order, each line `Format` of its record |
| AttendanceController.Reversed | controllers/attendanceController.js:141-145 | newest first: the records in reverse order |
| AttendanceController.StudentAttendance | controllers/attendanceController.js:128-168 | 404 exactly when the user has no roster entry; otherwise the lines are exactly the caller's records (in the class, when given), newest first, each formatted, with total the number of lines and present never above it |
| AttendanceController.PresentLinesArePresentRecords | controllers/attendanceController.js:149-157 | the lines shown as "Present" are as many as the `present` records |
| AttendanceController.CountReversed | controllers/attendanceController.js:144-157 | the order of the history does not change the count |
| AttendanceController.HistoryCountsRecords | controllers/attendanceController.js:133-157 | the history's total is the number of the caller's records (in the class, when given) and its present count is the number of those that are `present` |
| AttendanceController.SessionClassAverage | controllers/attendanceController.js:231-260 | 404 exactly when no session with that token belongs to the teacher; otherwise, for the first such session, the class is its class, `totalStudents` the number of roster entries of that class and `presentCount` the number of `present` records of that session, both bounded by the collections |
| AttendanceController.MarkRaisesPresentCount | controllers/attendanceController.js:236-245 | a successful mark raises its session's present count by exactly one and leaves the class size unchanged |
| AttendanceController.AverageIgnoresUncountedRecord | controllers/attendanceController.js:241-245 | a new record that is absent, or belongs to no session of that token and teacher, leaves the whole answer unchanged |
| AttendanceController.AverageCountsRosterEntry | controllers/attendanceController.js:241-245 | a new roster entry of the session's class raises `totalStudents` by exactly one and leaves `presentCount` unchanged |
| ClassController.EarliestLinked | controllers/classController.js:77-79 | none exactly when no entry has that enrollment number and a user; otherwise such an entry with the least `createdAt` (ties: the earlier-inserted, a modelling choice) |
| ClassController.FindUser | controllers/classController.js:79 | the populated account: none exactly when no user has that `_id`, otherwise a stored user with that `_id` |
| ClassController.LinkFor | controllers/classController.js:77-83 | the linked user is that of the earliest-created linked entry with the enrollment number, when that account exists in the user store; the email and name are the entry's when non-empty, else the account's when non-empty, else null; with no such entry user, email and name are all null |
| ClassController.RosterName | controllers/classController.js:86-87 | the request's name when non-empty, else the linked name when non-empty, else "Student"; never empty |
| ClassController.AddStudentToClass | controllers/classController.js:60-99 | 400 before any lookup exactly when name or enrollment number is empty; 400 and no insert exactly when the class already has that enrollment number; otherwise appends an entry with the class, the caller as teacher, and the linked user and email; the unique key and the other collections are kept |
| ClassController.DeleteKeepsAttendance | controllers/classController.js:111 | deleting attendance records keeps `_id`s unique and keeps at most one record per (student, session) |
| ClassController.DeleteKeepsStudents | controllers/classController.js:112 | deleting roster entries keeps the roster's unique keys |
| ClassController.DeleteAttendanceOf | controllers/classController.js:111 | `deleteMany`: the records become those not of that student in that class; no duplicate marks and the store's well-formedness are kept |
| ClassController.DeleteStudentAt | controllers/classController.js:112 | `deleteOne`: exactly that entry leaves the roster, the others stay in order |
| ClassController.RemoveStudentFromClass | controllers/classController.js:101-118 | 404 and nothing deleted exactly when no entry matches id, class and teacher at once; otherwise deletes exactly that student's records in that class (all others stay, in order) and exactly that one entry |
| ClassController.OnlyOneWithId | controllers/classController.js:112 | with unique `_id`s, deleting by `_id` removes exactly one entry and keeps the rest in order |
| StudentController.Roster | controllers/studentController.js:76 | exactly the entries of the class and teacher |
| StudentController.TallyIn | controllers/studentController.js:100-102 | present never exceeds total, which never exceeds the records |
| StudentController.TallyOf | controllers/studentController.js:106 | the per-student lookup with a zero default: the stored tally for a present key, zeros otherwise |
| StudentController.TallyByStudent | controllers/studentController.js:93-103 | the loop's map gives, for every student, the number of their records and of their `present` ones (zero for a missing key); every key has at least one record |
| StudentController.ClassTally | controllers/studentController.js:85-102 | a student's counts within the class; present never exceeds total |
| StudentController.FetchedTallyIsClassTally | controllers/studentController.js:85-91 | for a rostered student, counting among the fetched records equals counting that student's records in the class |
| StudentController.ClassStudentsWithAttendance | controllers/studentController.js:70-122 | one row per roster entry, in roster order (empty for an empty roster), each carrying that student's class counts with present at most total |
| StudentController.UnrecordedStudentGetsZeros | controllers/studentController.js:105-108 | a student without records in the class gets total 0 and present 0 |
| StudentController.PresentNeedsARecord | controllers/studentController.js:100-102 | a positive present count means a `present` record of that student in that class exists |
| AuthController.ClassEntries | controllers/authController.js:18-26 | no more entries than records, each naming one of the records |
| AuthController.EntriesFollowLiveRecords | controllers/authController.js:18-26 | the entries are exactly the records whose class exists, in their order, each mapped to its class's id, name and code |
| AuthController.StudentClassPayload | controllers/authController.js:13-32 | the default class and enrollment number are those of the first entry, both null exactly when there are no entries |
| AuthController.PayloadDefaultIsFirstLiveRecord | controllers/authController.js:28-29 | the default class is that of the account's first roster entry (in store order) whose class exists |
| AuthController.PayloadOfSoleRecord | controllers/authController.js:13-32 | an account with one entry in an existing class gets that single class, which is also the default |
| Queries.FindClass | controllers/authController.js:78 | `Class.findById`: none exactly when no class has that `_id`, otherwise a stored class with that `_id` |
| AuthController.PassesValidation | routes/authRoutes.js:23-26 | the request is refused when the name is empty, the email is not well formed, or the password has fewer than 6 characters, and accepted otherwise |
| AuthController.ExistingEntry | controllers/authController.js:58 | `Student.findOne({ enrollmentNumber, class })`: none exactly when no entry has both, otherwise an entry with both |
| AuthController.Precheck | controllers/authController.js:35-65 | the rejections in order (validation, email in use, missing enrollment number, missing class, entry already claimed), each with its exact condition; on success, the unclaimed entry to reuse if any |
| AuthController.CreateUser | controllers/authController.js:67-72 | appends the user with a fresh `_id`; nothing else changes |
| AuthController.DeleteNewUser | controllers/authController.js:78-82 | deleting the user just created gives back the user store as it was |
| AuthController.Claimed | controllers/authController.js:84-86 | the reused entry gets the new account's user, name and email; its `_id`, `createdAt`, percentage and (enrollmentNumber, class, teacher) key are unchanged |
| AuthController.ClaimEntry | controllers/authController.js:83-88 | only the reused entry changes: its user, name and email become the new account's |
| AuthController.ClaimOrCreate | controllers/authController.js:83-99 | reuse the unclaimed entry, or append one whose teacher is the class's; either way exactly one entry belongs to the new account |
| AuthController.FinishStudent | controllers/authController.js:83-115 | the response's class is the requested class and its enrollment number the request's; its one class entry carries the class's id, name and code, the enrollment number, and the `_id` of the reused entry or of the newly created one |
| AuthController.RegisterUser | controllers/authController.js:34-119 | rejected exactly as `Precheck` says, or 404 exactly when `Precheck` passes for a student whose class does not exist, and accepted in every other case; on every rejection the user and roster stores end as they began (compensating delete); on success the user is appended, a non-student gets no class, and a student's entry is reused or created as above; a student's one class entry carries the class's id, name and code, the enrollment number, and the `_id` of the reused or created entry |
| Store.CreateStudent | models/Student.js:3-39 | appends a roster entry with a fresh `_id` and `attendancePercentage` 0; callers pass the schema's required non-empty name and enrollment number; the (enrollmentNumber, class, teacher) key stays unique and every entry keeps a non-empty name and enrollment number |

## Left out

- Token signing (JWT), password hashing and comparison, and the `/login` route. The password only enters validation, as its length.
- express-validator's `isEmail`. It is an input `emailWellFormed`; `notEmpty` and the 6-character minimum are modelled.
- QR encoding and `crypto.randomBytes`. The session token and the image are inputs, and the image is `None` when encoding throws.
- Floating-point percentages and `toFixed(2)`. The model keeps the integer counts (present, total) they are computed from.
- `getAttendanceSummary`, with its local-midnight date arithmetic. Report date bounds are integers, not parsed date strings.
- `populate`/`lean` projections. Only the fields the controllers read are modelled.
- Concurrency. Each operation is one atomic step, so the `updateMany`-then-`create` race and the check-then-insert in `markAttendance` are not modelled, and the invariants hold for sequential execution only.
- `updatedAt` timestamps, and HTTP response bodies and messages beyond the error codes.
- Store failures. Most handlers answer them with 500 from a `catch`; `registerUser` has no `try`/`catch` (controllers/authController.js:34-119), so a failure there escapes the handler. Neither path is modelled: every store step succeeds.
- Malformed ObjectIds (cast errors). Ids are naturals.
- models/Class.js is not part of this model. A class is an opaque record with id, name, code and teacher, and classes are never written.
- models/User.js is not part of this model. A user has id, name, email and role, and the schema's own validators are not modelled.
- AuthController.RegisterUser: the created account's `role` (controllers/authController.js:76, :102) is taken to be the request's `role` (:50). Any default, enum restriction or lowercasing in models/User.js is not modelled.
- One clock reading per operation. The source calls `Date.now()` and lets Mongoose stamp `createdAt` separately, so the two may differ by a few milliseconds; the model uses the single parameter `now` for both.
- `addStudent`, `generateQR` and the other read routes of studentController.js and classController.js.
- AddStudentToClass: the source does not check that the caller owns the class, and neither does the model.
- AttendanceController.Reversed: the history's `sort({ createdAt: -1 })` is modelled as reversed insertion order, which assumes `createdAt` grows with insertion.
- RegisterUser: the `if (user)` guard always holds, because `User.create` returns the document or throws, so the "Invalid user data" branch is not modelled.
- SessionController.ExpiresAt: `durationMinutes || 60` has no positivity check, so a negative duration gives a session that has already expired; the model keeps that behaviour.
- SessionController.ExpiresAt: the duration is an optional integer, so three JavaScript behaviours of controllers/sessionController.js:17-19 are not captured. A fractional duration (0.5 minutes gives a 30-second session) cannot be expressed. A string body value is coerced: `"0"` is truthy, so it keeps 0 minutes and `expiresAt == now`, while the model turns 0 into 60. A duration large enough to make `new Date(...)` invalid makes `Session.create` fail after the `updateMany`, while the model creates the session.
- SessionController.LatestActive: MongoDB leaves the order of sessions with equal `createdAt` unspecified; letting the later-inserted one win is a modelling choice.
- ClassController.EarliestLinked: likewise, letting the earlier-inserted entry win among equal `createdAt` values is a modelling choice.

=== FILE: attendance_controller.dfy ===
/** The attendance recorder and the read views of
    controllers/attendanceController.js: marking attendance from a scanned
    session token, the QR view of a class, the teacher's report, a student's
    history and the per-session class average. */
module AttendanceController {
  import opened Models
  import opened Queries
  import opened Store
  import opened SessionController

  ghost predicate Marked(recs: seq<Attendance>, student: ObjectId, session: ObjectId)
  {
    exists i :: 0 <= i < |recs| && recs[i].student == student && recs[i].session == session
  }

  /** The filter `{ student, session }`. */
  function MarkOf(student: ObjectId, session: ObjectId): Attendance -> bool
  {
    (a: Attendance) => a.student == student && a.session == session
  }

  /** A session that still accepts scans: the negation of
      `!session.isActive || session.expiresAt < Date.now()`. */
  predicate OpenAt(s: Session, now: int)
  {
    s.isActive && now <= s.expiresAt
  }

  /** The rejections of `markAttendance`: the first two are `404`, the others `400`. */
  datatype MarkError = UnknownStudent | UnknownSession | ExpiredSession | AlreadyMarked

  /** What `markAttendance` answers, and the record it inserts on success
      (`newId` is the `_id` the store hands out). The four rejections come in
      the source's order; `class` and `teacher` come from the session. */
  function MarkOutcome(students: seq<Student>, sessions: seq<Session>, recs: seq<Attendance>,
                       userId: ObjectId, sessionId: string, now: int, newId: ObjectId): (r: Result<Attendance, MarkError>)
    ensures var st := FirstIndex(students, HasUser(userId));
            var se := FirstIndex(sessions, HasSessionId(sessionId));
            && (r == Err(UnknownStudent) <==> st.None?)
            && (r == Err(UnknownSession) <==> st.Some? && se.None?)
            && (r == Err(ExpiredSession) <==> st.Some? && se.Some? && !OpenAt(sessions[se.value], now))
            && (r == Err(AlreadyMarked) <==>
                  st.Some? && se.Some? && OpenAt(sessions[se.value], now) &&
                  Marked(recs, students[st.value].id, sessions[se.value].id))
            && (r.Ok? ==>
                  st.Some? && se.Some? &&
                  r.value == NewAttendance(newId, students[st.value].id, sessions[se.value].id,
                                           sessions[se.value].cls, sessions[se.value].teacher, Present, now))
  {
    match FirstIndex(students, HasUser(userId))
    case None => Err(UnknownStudent)
    case Some(st) =>
      match FirstIndex(sessions, HasSessionId(sessionId))
      case None => Err(UnknownSession)
      case Some(se) =>
        var session := sessions[se];
        if !session.isActive || session.expiresAt < now then Err(ExpiredSession)
        else
          var student := students[st];
          var existing := FirstIndex(recs, MarkOf(student.id, session.id));
          if existing.Some? then
            assert MarkOf(student.id, session.id)(recs[existing.value]);
            Err(AlreadyMarked)
          else
            assert !Marked(recs, student.id, session.id) by {
              forall i | 0 <= i < |recs| ensures !(recs[i].student == student.id && recs[i].session == session.id) {
                assert !MarkOf(student.id, session.id)(recs[i]);
              }
            }
            Ok(NewAttendance(newId, student.id, session.id, session.cls, session.teacher, Present, now))
  }

  /** Appending a record of a (student, session) pair not yet marked keeps
      the no-duplicates invariant. */
  lemma AppendUnmarkedKeepsNoDuplicates(recs: seq<Attendance>, a: Attendance)
    requires NoDuplicateMarks(recs)
    requires !Marked(recs, a.student, a.session)
    ensures NoDuplicateMarks(recs + [a])
  {
    forall i, j | 0 <= i < j < |recs| + 1
      ensures !SameMark((recs + [a])[i], (recs + [a])[j])
    {
      if j == |recs| {
        assert (recs + [a])[i] == recs[i];
      }
    }
  }

  /** A successful mark keeps at most one record per (student, session). */
  lemma MarkKeepsNoDuplicates(students: seq<Student>, sessions: seq<Session>, recs: seq<Attendance>,
                              userId: ObjectId, sessionId: string, now: int, newId: ObjectId)
    requires NoDuplicateMarks(recs)
    requires MarkOutcome(students, sessions, recs, userId, sessionId, now, newId).Ok?
    ensures NoDuplicateMarks(recs + [MarkOutcome(students, sessions, recs, userId, sessionId, now, newId).value])
  {
    var a := MarkOutcome(students, sessions, recs, userId, sessionId, now, newId).value;
    AppendUnmarkedKeepsNoDuplicates(recs, a);
  }

  /** Scanning the same token twice: the second scan, at any time, is
      rejected as already marked (or expired), and never records twice. */
  lemma {:induction false} SecondScanRejected(students: seq<Student>, sessions: seq<Session>, recs: seq<Attendance>,
                                              userId: ObjectId, sessionId: string, now: int, later: int,
                                              newId: ObjectId, laterId: ObjectId)
    requires MarkOutcome(students, sessions, recs, userId, sessionId, now, newId).Ok?
    ensures var a := MarkOutcome(students, sessions, recs, userId, sessionId, now, newId).value;
            var again := MarkOutcome(students, sessions, recs + [a], userId, sessionId, later, laterId);
            again == Err(AlreadyMarked) || again == Err(ExpiredSession)
  {
    var a := MarkOutcome(students, sessions, recs, userId, sessionId, now, newId).value;
    assert (recs + [a])[|recs|] == a;
    assert Marked(recs + [a], a.student, a.session);
  }

  /** Expiry is strict on the write path too: a scan at exactly `expiresAt`
      is not rejected as expired, a scan one millisecond later is. */
  lemma ScanBoundary(students: seq<Student>, sessions: seq<Session>, recs: seq<Attendance>,
                     userId: ObjectId, sessionId: string, newId: ObjectId, k: nat)
    requires FirstIndex(students, HasUser(userId)).Some?
    requires FirstIndex(sessions, HasSessionId(sessionId)) == Some(k)
    requires sessions[k].isActive
    ensures MarkOutcome(students, sessions, recs, userId, sessionId, sessions[k].expiresAt, newId) != Err(ExpiredSession)
    ensures MarkOutcome(students, sessions, recs, userId, sessionId, sessions[k].expiresAt + 1, newId) == Err(ExpiredSession)
  {
  }

  /** `Attendance.create(...)`: append a record with a fresh `_id`. */
  method CreateAttendance(db: Database, student: ObjectId, session: ObjectId, cls: ObjectId, teacher: ObjectId,
                          status: Status, now: int)
    returns (a: Attendance)
    requires db.Valid()
    modifies db
    ensures db.Valid()
    ensures a == NewAttendance(old(db.nextId), student, session, cls, teacher, status, now)
    ensures db.attendance == old(db.attendance) + [a] && db.nextId == old(db.nextId) + 1
    ensures db.sessions == old(db.sessions) && db.students == old(db.students)
    ensures db.users == old(db.users) && db.classes == old(db.classes)
  {
    a := NewAttendance(db.nextId, student, session, cls, teacher, status, now);
    RaiseNextId(db.sessions, db.attendance, db.students, db.users, db.nextId, db.nextId + 1);
    db.attendance := db.attendance + [a];
    db.nextId := db.nextId + 1;
  }

  /** `markAttendance`: resolve the student by the caller's user id, resolve
      the session by its token, reject a closed session and a repeat scan,
      then insert a `present` record. */
  method MarkAttendance(db: Database, userId: ObjectId, sessionId: string, now: int)
    returns (r: Result<Attendance, MarkError>)
    requires db.Valid()
    modifies db
    ensures db.Valid()
    ensures r == MarkOutcome(old(db.students), old(db.sessions), old(db.attendance), userId, sessionId, now, old(db.nextId))
    ensures r.Err? ==> db.attendance == old(db.attendance) && db.nextId == old(db.nextId)
    ensures r.Ok? ==> db.attendance == old(db.attendance) + [r.value] && db.nextId == old(db.nextId) + 1
    ensures db.sessions == old(db.sessions) && db.students == old(db.students)
    ensures db.users == old(db.users) && db.classes == old(db.classes)
    ensures old(NoDuplicateMarks(db.attendance)) ==> NoDuplicateMarks(db.attendance)
  {
    var st := FirstIndex(db.students, HasUser(userId));
    if st.None? {
      return Err(UnknownStudent);
    }
    var student := db.students[st.value];
    var se := FirstIndex(db.sessions, HasSessionId(sessionId));
    if se.None? {
      return Err(UnknownSession);
    }
    var session := db.sessions[se.value];
    if !session.isActive || session.expiresAt < now {
      return Err(ExpiredSession);
    }
    var existing := FirstIndex(db.attendance, MarkOf(student.id, session.id));
    if existing.Some? {
      return Err(AlreadyMarked);
    }
    assert MarkOutcome(db.students, db.sessions, db.attendance, userId, sessionId, now, db.nextId) ==
      Ok(NewAttendance(db.nextId, student.id, session.id, session.cls, session.teacher, Present, now));
    if NoDuplicateMarks(db.attendance) {
      MarkKeepsNoDuplicates(db.students, db.sessions, db.attendance, userId, sessionId, now, db.nextId);
    }
    var a := CreateAttendance(db, student.id, session.id, session.cls, session.teacher, Present, now);
    r := Ok(a);
  }

  /** `Math.max(0, Math.floor((expiresAt - now) / 1000))`: the whole seconds
      left, never negative. */
  function SecondsLeft(expiresAt: int, now: int): (n: int)
    ensures n >= 0
    ensures now <= expiresAt ==> n * 1000 <= expiresAt - now < (n + 1) * 1000
    ensures n == 0 <==> expiresAt - now < 1000
  {
    var q := (expiresAt - now) / 1000;
    if q < 0 then 0 else q
  }

  /** The two shapes of a `getQRForClass` answer. */
  datatype QRView =
    | ExpiredView
    | LiveView(qrImage: string, expiresIn: int, sessionId: string, cls: ObjectId, lectureTiming: string)

  /** `getQRForClass`: the most recent active session's QR with the seconds
      it has left, or an expired marker. A pure read of the store: unlike
      `getActiveSession` it never clears `isActive`. */
  function QRForClass(sessions: seq<Session>, cls: ObjectId, now: int): (r: Result<QRView, ActiveError>)
    ensures r.Err? <==> forall i :: 0 <= i < |sessions| ==> !ActiveIn(sessions[i], cls)
    ensures r.Err? ==> r.error == NoActiveSession
    ensures r.Ok? && r.value.LiveView? ==> r.value.expiresIn > 0
    ensures r.Ok? ==>
      var s := sessions[LatestActive(sessions, cls).value];
      && (r.value == ExpiredView <==> SecondsLeft(s.expiresAt, now) == 0)
      && (r.value.LiveView? ==>
            && r.value.expiresIn == SecondsLeft(s.expiresAt, now)
            && r.value.qrImage == s.qrCode
            && r.value.sessionId == s.sessionId
            && r.value.cls == cls
            && r.value.lectureTiming == s.lectureTiming)
  {
    match LatestActive(sessions, cls)
    case None => Err(NoActiveSession)
    case Some(k) =>
      var s := sessions[k];
      var expiresIn := SecondsLeft(s.expiresAt, now);
      if expiresIn <= 0 then Ok(ExpiredView)
      else Ok(LiveView(s.qrCode, expiresIn, s.sessionId, s.cls, s.lectureTiming))
  }

  /** The QR view shows no image exactly when less than a second is left on
      the most recent active session. */
  lemma QRExpiredUnderOneSecond(sessions: seq<Session>, cls: ObjectId, now: int, k: nat)
    requires LatestActive(sessions, cls) == Some(k)
    ensures QRForClass(sessions, cls, now) == Ok(ExpiredView) <==> sessions[k].expiresAt - now < 1000
    ensures QRForClass(sessions, cls, now).Ok?
  {
  }

  /** The QR view and `getActiveSession` agree: a live QR belongs to the
      session the active read returns, and a session the active read finds
      expired shows as expired in the QR view. */
  lemma QRAgreesWithActiveRead(sessions: seq<Session>, cls: ObjectId, now: int)
    ensures QRForClass(sessions, cls, now).Ok? && QRForClass(sessions, cls, now).value.LiveView? ==>
      ReadActive(sessions, cls, now).Ok? &&
      ReadActive(sessions, cls, now).value.sessionId == QRForClass(sessions, cls, now).value.sessionId
    ensures ReadActive(sessions, cls, now) == Err(SessionExpired) ==> QRForClass(sessions, cls, now) == Ok(ExpiredView)
    ensures ReadActive(sessions, cls, now) == Err(NoActiveSession) <==> QRForClass(sessions, cls, now) == Err(NoActiveSession)
  {
  }

  /** The query `getAttendanceReport` builds: the teacher is always matched;
      class, student and the two date bounds only when given. */
  datatype ReportQuery = ReportQuery(
    teacher: ObjectId,
    cls: Option<ObjectId>,
    student: Option<ObjectId>,
    startDate: Option<int>,
    endDate: Option<int>)

  predicate InReport(a: Attendance, q: ReportQuery)
  {
    && a.teacher == q.teacher
    && (q.cls.Some? ==> a.cls == q.cls.value)
    && (q.student.Some? ==> a.student == q.student.value)
    && (q.startDate.Some? ==> q.startDate.value <= a.scanTime)
    && (q.endDate.Some? ==> a.scanTime <= q.endDate.value)
  }

  function ReportFilter(q: ReportQuery): Attendance -> bool
  {
    (a: Attendance) => InReport(a, q)
  }

  /** `getAttendanceReport`: the teacher's records that match the query, in
      store order. */
  function AttendanceReport(recs: seq<Attendance>, q: ReportQuery): (r: seq<Attendance>)
    ensures forall a :: a in r <==> a in recs && InReport(a, q)
    ensures forall a :: a in r ==> a.teacher == q.teacher
  {
    Filter(recs, ReportFilter(q))
  }

  /** The filter `{ teacher }`. */
  function OfTeacher(teacher: ObjectId): Attendance -> bool
  {
    (a: Attendance) => a.teacher == teacher
  }

  /** Both date bounds are inclusive, and a report without filters is every
      record of the teacher. */
  lemma ReportBoundsInclusive(recs: seq<Attendance>, q: ReportQuery, a: Attendance)
    requires a in recs && a.teacher == q.teacher
    requires q.cls.None? && q.student.None?
    requires q.startDate == Some(a.scanTime) && q.endDate == Some(a.scanTime)
    ensures a in AttendanceReport(recs, q)
    ensures AttendanceReport(recs, ReportQuery(q.teacher, None, None, None, None)) == Filter(recs, OfTeacher(q.teacher))
  {
    FilterCongruent(recs, ReportFilter(ReportQuery(q.teacher, None, None, None, None)), OfTeacher(q.teacher));
  }

  /** One line of a student's history. */
  datatype HistoryEntry = HistoryEntry(
    id: ObjectId,
    status: string,
    scanTime: int,
    createdAt: int,
    className: string,
    sessionTiming: string)

  /** `present` and `total` stand in for the percentage the source derives
      from them. */
  datatype History = History(records: seq<HistoryEntry>, total: nat, present: nat)

  datatype HistoryError = NoStudentRecord

  /** `r.status === "present" ? "Present" : "Absent"`. */
  function DisplayStatus(s: Status): (d: string)
    ensures d == "Present" <==> s == Present
  {
    if s == Present then "Present" else "Absent"
  }

  /** The filter `{ _id }` on sessions, for `populate('session')`. */
  function HasRowId(id: ObjectId): Session -> bool
  {
    (s: Session) => s.id == id
  }

  /** `r.class?.name || "Class"`. */
  function ClassNameOf(classes: seq<ClassDoc>, cls: ObjectId): (name: string)
    ensures name != ""
    ensures (forall i :: 0 <= i < |classes| ==> classes[i].id != cls) ==> name == "Class"
    ensures FindClass(classes, cls).Some? && FindClass(classes, cls).value.name != "" ==>
      name == FindClass(classes, cls).value.name
    ensures name != "Class" ==> exists c :: c in classes && c.id == cls && c.name == name
  {
    match FindClass(classes, cls)
    case Some(c) => if c.name != "" then c.name else "Class"
    case None => "Class"
  }

  /** `r.session?.lectureTiming || ""`. */
  function SessionTimingOf(sessions: seq<Session>, session: ObjectId): (timing: string)
    ensures (forall i :: 0 <= i < |sessions| ==> sessions[i].id != session) ==> timing == ""
    ensures timing != "" ==> exists i :: 0 <= i < |sessions| && sessions[i].id == session && sessions[i].lectureTiming == timing
    ensures forall k :: FirstIndex(sessions, HasRowId(session)) == Some(k) ==> timing == sessions[k].lectureTiming
  {
    match FirstIndex(sessions, HasRowId(session))
    case Some(k) => sessions[k].lectureTiming
    case None => ""
  }

  /** One history line: the record's id and times, its display status, and
      the populated class name and session timing with their fallbacks. */
  function Format(a: Attendance, classes: seq<ClassDoc>, sessions: seq<Session>): (e: HistoryEntry)
    ensures e.id == a.id && e.scanTime == a.scanTime && e.createdAt == a.createdAt
    ensures e.status == "Present" <==> a.status == Present
    ensures e.className == ClassNameOf(classes, a.cls) && e.className != ""
    ensures e.sessionTiming == SessionTimingOf(sessions, a.session)
  {
    HistoryEntry(a.id, DisplayStatus(a.status), a.scanTime, a.createdAt,
                 ClassNameOf(classes, a.cls), SessionTimingOf(sessions, a.session))
  }

  /** `attendance.map(...)`: one formatted line per record, in order. */
  function FormatAll(recs: seq<Attendance>, classes: seq<ClassDoc>, sessions: seq<Session>): (r: seq<HistoryEntry>)
    ensures |r| == |recs|
    ensures forall i :: 0 <= i < |r| ==> r[i] == Format(recs[i], classes, sessions)
    ensures forall i :: 0 <= i < |r| ==> r[i].id == recs[i].id && (r[i].status == "Present" <==> recs[i].status == Present)
  {
    if recs == [] then [] else [Format(recs[0], classes, sessions)] + FormatAll(recs[1..], classes, sessions)
  }

  /** `.sort({ createdAt: -1 })` on records appended in creation order. */
  function Reversed<T>(s: seq<T>): (r: seq<T>)
    ensures |r| == |s|
    ensures forall i :: 0 <= i < |s| ==> r[i] == s[|s| - 1 - i]
  {
    if s == [] then [] else Reversed(s[1..]) + [s[0]]
  }

  /** The filter `{ student }` plus `{ class }` when a class is given. */
  function OfStudentIn(student: ObjectId, cls: Option<ObjectId>): Attendance -> bool
  {
    (a: Attendance) => a.student == student && (cls.Some? ==> a.cls == cls.value)
  }

  function IsPresentLine(e: HistoryEntry): bool
  {
    e.status == "Present"
  }

  /** `getStudentAttendance`: the caller's records, newest first, and how many
      of them are present. */
  function StudentAttendance(students: seq<Student>, sessions: seq<Session>, classes: seq<ClassDoc>,
                             recs: seq<Attendance>, userId: ObjectId, cls: Option<ObjectId>)
    : (r: Result<History, HistoryError>)
    ensures r.Err? <==> forall i :: 0 <= i < |students| ==> students[i].user != Some(userId)
    ensures r.Ok? ==> r.value.total == |r.value.records| && r.value.present <= r.value.total
    ensures r.Ok? ==>
      && FirstIndex(students, HasUser(userId)).Some?
      && var mine := Filter(recs, OfStudentIn(students[FirstIndex(students, HasUser(userId)).value].id, cls));
         && |r.value.records| == |mine|
         && forall i :: 0 <= i < |mine| ==> r.value.records[i] == Format(mine[|mine| - 1 - i], classes, sessions)
  {
    match FirstIndex(students, HasUser(userId))
    case None => Err(NoStudentRecord)
    case Some(st) =>
      var lines := FormatAll(Reversed(Filter(recs, OfStudentIn(students[st].id, cls))), classes, sessions);
      Ok(History(lines, |lines|, Count(lines, IsPresentLine)))
  }

  function IsPresentRecord(a: Attendance): bool
  {
    a.status == Present
  }

  /** Counting "Present" lines counts the `present` records behind them. */
  lemma {:induction false} PresentLinesArePresentRecords(recs: seq<Attendance>, classes: seq<ClassDoc>, sessions: seq<Session>)
    ensures Count(FormatAll(recs, classes, sessions), IsPresentLine) == Count(recs, IsPresentRecord)
  {
    if recs != [] {
      PresentLinesArePresentRecords(recs[1..], classes, sessions);
    }
  }

  /** Reordering does not change a count. */
  lemma {:induction false} CountReversed<T(!new)>(s: seq<T>, p: T -> bool)
    ensures Count(Reversed(s), p) == Count(s, p)
  {
    if s != [] {
      CountReversed(s[1..], p);
      FilterAppend(Reversed(s[1..]), [s[0]], p);
      FilterAppend([s[0]], s[1..], p);
      assert [s[0]] + s[1..] == s;
    }
  }

  /** The history counts exactly the caller's records (in the class, when
      one is given), and among them exactly those with status `present`. */
  lemma HistoryCountsRecords(students: seq<Student>, sessions: seq<Session>, classes: seq<ClassDoc>,
                             recs: seq<Attendance>, userId: ObjectId, cls: Option<ObjectId>, st: nat)
    requires FirstIndex(students, HasUser(userId)) == Some(st)
    ensures var mine := Filter(recs, OfStudentIn(students[st].id, cls));
            var r := StudentAttendance(students, sessions, classes, recs, userId, cls);
            r.Ok? && r.value.total == |mine| && r.value.present == Count(mine, IsPresentRecord)
  {
    var mine := Filter(recs, OfStudentIn(students[st].id, cls));
    PresentLinesArePresentRecords(Reversed(mine), classes, sessions);
    CountReversed(mine, IsPresentRecord);
  }

  /** The answer of `getSessionClassAverage`: counts instead of the rounded
      percentage. */
  datatype SessionAverage = SessionAverage(sessionId: string, cls: ObjectId, totalStudents: nat, presentCount: nat)

  datatype AverageError = AverageSessionNotFound

  function OwnedSession(sid: string, teacher: ObjectId): Session -> bool
  {
    (s: Session) => s.sessionId == sid && s.teacher == teacher
  }

  function InClass(cls: ObjectId): Student -> bool
  {
    (s: Student) => s.cls == cls
  }

  function PresentIn(session: ObjectId): Attendance -> bool
  {
    (a: Attendance) => a.session == session && a.status == Present
  }

  /** `getSessionClassAverage`: the roster size of the session's class and the
      number of `present` records of that session. */
  function SessionClassAverage(sessions: seq<Session>, students: seq<Student>, recs: seq<Attendance>,
                               sid: string, teacher: ObjectId): (r: Result<SessionAverage, AverageError>)
    ensures r.Err? <==> forall i :: 0 <= i < |sessions| ==> !(sessions[i].sessionId == sid && sessions[i].teacher == teacher)
    ensures r.Ok? ==> r.value.sessionId == sid && r.value.totalStudents <= |students| && r.value.presentCount <= |recs|
    ensures r.Ok? ==> exists k :: 0 <= k < |sessions| && sessions[k].sessionId == sid && sessions[k].teacher == teacher &&
                                  r.value.cls == sessions[k].cls
    ensures r.Ok? ==>
      var s := sessions[FirstIndex(sessions, OwnedSession(sid, teacher)).value];
      r.value.cls == s.cls &&
      r.value.totalStudents == |Filter(students, InClass(s.cls))| &&
      r.value.presentCount == |Filter(recs, PresentIn(s.id))|
  {
    match FirstIndex(sessions, OwnedSession(sid, teacher))
    case None => Err(AverageSessionNotFound)
    case Some(k) =>
      Ok(SessionAverage(sid, sessions[k].cls, Count(students, InClass(sessions[k].cls)), Count(recs, PresentIn(sessions[k].id))))
  }

  /** A successful scan raises its session's present count by exactly one
      (with `sessionId` unique, the scan and the average resolve the same
      session). */
  lemma MarkRaisesPresentCount(students: seq<Student>, sessions: seq<Session>, recs: seq<Attendance>,
                               userId: ObjectId, sid: string, now: int, newId: ObjectId, n: nat)
    requires SessionsWellFormed(sessions, n)
    requires MarkOutcome(students, sessions, recs, userId, sid, now, newId).Ok?
    ensures var a := MarkOutcome(students, sessions, recs, userId, sid, now, newId).value;
            var before := SessionClassAverage(sessions, students, recs, sid, a.teacher);
            var after := SessionClassAverage(sessions, students, recs + [a], sid, a.teacher);
            before.Ok? && after.Ok? && after.value.presentCount == before.value.presentCount + 1 &&
            after.value.totalStudents == before.value.totalStudents
  {
    var a := MarkOutcome(students, sessions, recs, userId, sid, now, newId).value;
    var se := FirstIndex(sessions, HasSessionId(sid)).value;
    var own := FirstIndex(sessions, OwnedSession(sid, a.teacher));
    assert OwnedSession(sid, a.teacher)(sessions[se]);
    assert own == Some(se) by {
      var k := own.value;
      assert OwnedSession(sid, a.teacher)(sessions[k]);
      assert sessions[k].sessionId == sid == sessions[se].sessionId;
    }
    CountSnoc(recs, a, PresentIn(sessions[se].id));
  }

  /** Only `present` records of the session itself are counted: adding an
      `absent` record, or a record of any other session, changes nothing in
      the answer. */
  lemma {:induction false} AverageIgnoresUncountedRecord(sessions: seq<Session>, students: seq<Student>,
                                                         recs: seq<Attendance>, sid: string, teacher: ObjectId,
                                                         a: Attendance)
    requires a.status == Absent ||
             forall i :: 0 <= i < |sessions| && sessions[i].sessionId == sid && sessions[i].teacher == teacher ==>
               sessions[i].id != a.session
    ensures SessionClassAverage(sessions, students, recs + [a], sid, teacher) ==
            SessionClassAverage(sessions, students, recs, sid, teacher)
  {
    var own := FirstIndex(sessions, OwnedSession(sid, teacher));
    if own.Some? {
      var k := own.value;
      assert OwnedSession(sid, teacher)(sessions[k]);
      CountSnoc(recs, a, PresentIn(sessions[k].id));
    }
  }

  /** Every roster entry of the session's class is counted: adding one
      raises the class size by one and leaves the present count alone. */
  lemma {:induction false} AverageCountsRosterEntry(sessions: seq<Session>, students: seq<Student>,
                                                    recs: seq<Attendance>, sid: string, teacher: ObjectId,
                                                    st: Student)
    requires SessionClassAverage(sessions, students, recs, sid, teacher).Ok?
    requires st.cls == SessionClassAverage(sessions, students, recs, sid, teacher).value.cls
    ensures var before := SessionClassAverage(sessions, students, recs, sid, teacher);
            var after := SessionClassAverage(sessions, students + [st], recs, sid, teacher);
            after.Ok? && after.value.totalStudents == before.value.totalStudents + 1 &&
            after.value.presentCount == before.value.presentCount
  {
    var k := FirstIndex(sessions, OwnedSession(sid, teacher)).value;
    CountSnoc(students, st, InClass(sessions[k].cls));
  }
}

=== FILE: auth_controller.dfy ===
/** Account registration in controllers/authController.js: the ordered
    checks, the claim of a roster entry by a new student account (reusing an
    unclaimed entry or creating one), the compensating delete when the class
    is missing, and the class payload returned to a student. Token signing
    and password handling are not part of this model. */
module AuthController {
  import opened Models
  import opened Queries
  import opened Store

  const StudentRole := "student"

  /** One class of a student account, as returned to the client. */
  datatype ClassEntry = ClassEntry(classId: ObjectId, className: string, classCode: string,
                                   enrollmentNumber: string, studentRecordId: ObjectId)

  /** `{ classes, defaultClassId, enrollmentNumber }`. */
  datatype Payload = Payload(classes: seq<ClassEntry>, defaultClassId: Option<ObjectId>,
                             enrollmentNumber: Option<string>)

  /** `populate('class')` leaves `class` null when the class document is gone;
      `filter((record) => record.class)` drops those records. */
  function ClassLive(classes: seq<ClassDoc>): Student -> bool
  {
    (s: Student) => FindClass(classes, s.cls).Some?
  }

  /** The records of this account whose class still exists. */
  function LiveRecordOf(uid: ObjectId, classes: seq<ClassDoc>): Student -> bool
  {
    (s: Student) => s.user == Some(uid) && FindClass(classes, s.cls).Some?
  }

  function EntryOf(record: Student, c: ClassDoc): ClassEntry
  {
    ClassEntry(c.id, c.name, c.code, record.enrollmentNumber, record.id)
  }

  /** The `filter` followed by the `map`, one record at a time. */
  function ClassEntries(records: seq<Student>, classes: seq<ClassDoc>): (es: seq<ClassEntry>)
    ensures |es| <= |records|
    ensures forall i :: 0 <= i < |es| ==> exists j :: 0 <= j < |records| && es[i].studentRecordId == records[j].id
  {
    if records == [] then []
    else
      var rest := ClassEntries(records[1..], classes);
      match FindClass(classes, records[0].cls)
      case None => rest
      case Some(c) => [EntryOf(records[0], c)] + rest
  }

  /** The entries are exactly the records whose class exists, in their order,
      each mapped to its class. */
  lemma {:induction false} EntriesFollowLiveRecords(records: seq<Student>, classes: seq<ClassDoc>)
    ensures |ClassEntries(records, classes)| == |Filter(records, ClassLive(classes))|
    ensures forall i :: 0 <= i < |ClassEntries(records, classes)| ==>
      var s := Filter(records, ClassLive(classes))[i];
      ClassLive(classes)(s) && ClassEntries(records, classes)[i] == EntryOf(s, FindClass(classes, s.cls).value)
  {
    if records != [] {
      var rest := records[1..];
      EntriesFollowLiveRecords(rest, classes);
      var es := ClassEntries(records, classes);
      var esRest := ClassEntries(rest, classes);
      var live := Filter(records, ClassLive(classes));
      var liveRest := Filter(rest, ClassLive(classes));
      match FindClass(classes, records[0].cls)
      case None =>
        assert es == esRest && live == liveRest;
      case Some(c) =>
        assert es == [EntryOf(records[0], c)] + esRest;
        assert live == [records[0]] + liveRest;
        forall i | 0 <= i < |es|
          ensures ClassLive(classes)(live[i]) && es[i] == EntryOf(live[i], FindClass(classes, live[i].cls).value)
        {
          if i > 0 {
            assert es[i] == esRest[i - 1] && live[i] == liveRest[i - 1];
          }
        }
    }
  }

  /** `buildStudentClassPayload(userId)`. */
  function StudentClassPayload(students: seq<Student>, classes: seq<ClassDoc>, uid: ObjectId): (p: Payload)
    ensures p.defaultClassId.None? <==> p.classes == []
    ensures p.enrollmentNumber.None? <==> p.classes == []
    ensures p.classes != [] ==>
      p.defaultClassId == Some(p.classes[0].classId) && p.enrollmentNumber == Some(p.classes[0].enrollmentNumber)
    ensures |p.classes| <= |students|
  {
    var entries := ClassEntries(Filter(students, HasUser(uid)), classes);
    if |entries| > 0 then Payload(entries, Some(entries[0].classId), Some(entries[0].enrollmentNumber))
    else Payload([], None, None)
  }

  /** The default class is the class of the first record (in store order)
      that belongs to the account and whose class exists; with no such
      record both defaults are null. */
  lemma PayloadDefaultIsFirstLiveRecord(students: seq<Student>, classes: seq<ClassDoc>, uid: ObjectId)
    ensures var p := StudentClassPayload(students, classes, uid);
      match FirstIndex(students, LiveRecordOf(uid, classes))
      case None => p.defaultClassId.None? && p.enrollmentNumber.None?
      case Some(k) => p.defaultClassId == Some(students[k].cls) && p.enrollmentNumber == Some(students[k].enrollmentNumber)
  {
    var mine := Filter(students, HasUser(uid));
    EntriesFollowLiveRecords(mine, classes);
    FilterFilter(students, HasUser(uid), ClassLive(classes), LiveRecordOf(uid, classes));
    FilterHeadIsFirst(students, LiveRecordOf(uid, classes));
    var k := FirstIndex(students, LiveRecordOf(uid, classes));
    if k.Some? {
      var s := students[k.value];
      var c := FindClass(classes, s.cls).value;
      assert c.id == s.cls;
    }
  }

  /** An account with a single roster entry in an existing class gets that
      one class, which is also the default. */
  lemma PayloadOfSoleRecord(students: seq<Student>, classes: seq<ClassDoc>, uid: ObjectId, k: nat)
    requires k < |students| && students[k].user == Some(uid)
    requires forall j :: 0 <= j < |students| && j != k ==> students[j].user != Some(uid)
    requires FindClass(classes, students[k].cls).Some?
    ensures StudentClassPayload(students, classes, uid) ==
      Payload([EntryOf(students[k], FindClass(classes, students[k].cls).value)],
               Some(students[k].cls), Some(students[k].enrollmentNumber))
  {
    FilterSingle(students, HasUser(uid), k);
    var rest := [students[k]][1..];
    assert rest == [];
    assert ClassEntries(rest, classes) == [];
  }

  /** The rejections of `registerUser`: `ClassNotFound` is `404`, the others `400`. */
  datatype RegisterError =
    | ValidationFailed
    | UserExists
    | EnrollmentRequired
    | ClassRequired
    | AlreadyRegistered
    | ClassNotFound

  /** The `201` response; the token is not part of this model. */
  datatype Registered = Registered(user: User, classId: Option<ObjectId>, classes: seq<ClassEntry>,
                                   enrollmentNumber: Option<string>)

  /** The route's validators: a non-empty name, a well-formed email (decided
      outside this model) and a password of at least 6 characters. */
  function PassesValidation(name: string, emailWellFormed: bool, password: string): (ok: bool)
    ensures name == "" ==> !ok
    ensures !emailWellFormed ==> !ok
    ensures |password| < 6 ==> !ok
    ensures name != "" && emailWellFormed && 6 <= |password| ==> ok
  {
    name != "" && emailWellFormed && |password| >= 6
  }

  function HasEmail(email: string): User -> bool
  {
    (u: User) => u.email == email
  }

  predicate EmailTaken(users: seq<User>, email: string)
  {
    exists i :: 0 <= i < |users| && users[i].email == email
  }

  /** `Student.findOne({ enrollmentNumber, class })`. */
  function ExistingEntry(students: seq<Student>, enrollmentNumber: string, cls: ObjectId): (r: Option<nat>)
    ensures r.Some? ==>
      r.value < |students| && students[r.value].enrollmentNumber == enrollmentNumber && students[r.value].cls == cls
    ensures r.None? <==> forall i :: 0 <= i < |students| ==>
      !(students[i].enrollmentNumber == enrollmentNumber && students[i].cls == cls)
  {
    var r := FirstIndex(students, EnrolledIn(enrollmentNumber, cls));
    if r.Some? then assert EnrolledIn(enrollmentNumber, cls)(students[r.value]); r
    else
      assert forall i :: 0 <= i < |students| ==> !EnrolledIn(enrollmentNumber, cls)(students[i]);
      r
  }

  /** The checks made before the account is created, in order; on success,
      the unclaimed roster entry a student account will take over, if any. */
  function Precheck(users: seq<User>, students: seq<Student>, name: string, emailWellFormed: bool,
                    password: string, email: string, role: string,
                    enrollmentNumber: Option<string>, classId: Option<ObjectId>): (r: Result<Option<nat>, RegisterError>)
    ensures r == Err(ValidationFailed) <==> !PassesValidation(name, emailWellFormed, password)
    ensures r == Err(UserExists) <==> PassesValidation(name, emailWellFormed, password) && EmailTaken(users, email)
    ensures r == Err(EnrollmentRequired) <==>
      PassesValidation(name, emailWellFormed, password) && !EmailTaken(users, email) &&
      role == StudentRole && !Truthy(enrollmentNumber)
    ensures r == Err(ClassRequired) <==>
      PassesValidation(name, emailWellFormed, password) && !EmailTaken(users, email) &&
      role == StudentRole && Truthy(enrollmentNumber) && classId.None?
    ensures r == Err(AlreadyRegistered) <==>
      PassesValidation(name, emailWellFormed, password) && !EmailTaken(users, email) &&
      role == StudentRole && Truthy(enrollmentNumber) && classId.Some? &&
      var e := ExistingEntry(students, enrollmentNumber.value, classId.value);
      e.Some? && students[e.value].user.Some?
    ensures r.Err? ==> r.error != ClassNotFound
    ensures r.Ok? && role != StudentRole ==> r.value.None?
    ensures r.Ok? && role == StudentRole ==>
      Truthy(enrollmentNumber) && classId.Some? &&
      r.value == ExistingEntry(students, enrollmentNumber.value, classId.value) &&
      (r.value.Some? ==> students[r.value.value].user.None?)
  {
    if !PassesValidation(name, emailWellFormed, password) then Err(ValidationFailed)
    else match FirstIndex(users, HasEmail(email))
      case Some(i) =>
        assert HasEmail(email)(users[i]);
        Err(UserExists)
      case None =>
        assert !EmailTaken(users, email) by {
          forall i | 0 <= i < |users| ensures users[i].email != email {
            assert !HasEmail(email)(users[i]);
          }
        }
        if role != StudentRole then Ok(None)
        else if !Truthy(enrollmentNumber) then Err(EnrollmentRequired)
        else if classId.None? then Err(ClassRequired)
        else
          var e := ExistingEntry(students, enrollmentNumber.value, classId.value);
          if e.Some? && students[e.value].user.Some? then Err(AlreadyRegistered)
          else Ok(e)
  }

  /** The entry a new student account claims: its account, name and email
      replaced by the new user's. */
  function Claimed(s: Student, u: User): (c: Student)
    ensures c.user == Some(u.id) && c.name == u.name && c.email == Some(u.email)
    ensures c.id == s.id && c.createdAt == s.createdAt && c.attendancePercentage == s.attendancePercentage
    ensures (c.enrollmentNumber, c.cls, c.teacher) == (s.enrollmentNumber, s.cls, s.teacher)
  {
    s.(user := Some(u.id), name := u.name, email := Some(u.email))
  }

  /** `User.create(...)`. */
  method CreateUser(db: Database, name: string, email: string, role: string) returns (u: User)
    requires db.Valid()
    modifies db
    ensures db.Valid()
    ensures u == User(old(db.nextId), name, email, role)
    ensures db.users == old(db.users) + [u] && db.nextId == old(db.nextId) + 1
    ensures db.sessions == old(db.sessions) && db.attendance == old(db.attendance)
    ensures db.students == old(db.students) && db.classes == old(db.classes)
  {
    u := User(db.nextId, name, email, role);
    RaiseNextId(db.sessions, db.attendance, db.students, db.users, db.nextId, db.nextId + 1);
    db.users := db.users + [u];
    db.nextId := db.nextId + 1;
  }

  function NotUser(id: ObjectId): User -> bool
  {
    (u: User) => u.id != id
  }

  /** `User.findByIdAndDelete` right after the user was created: the user
      store is back to what it was. */
  method DeleteNewUser(db: Database, u: User)
    requires db.Valid()
    requires |db.users| > 0 && db.users[|db.users| - 1] == u
    requires forall i :: 0 <= i < |db.users| - 1 ==> db.users[i].id != u.id
    modifies db
    ensures db.Valid()
    ensures db.users == old(db.users)[..|old(db.users)| - 1]
    ensures db.sessions == old(db.sessions) && db.attendance == old(db.attendance)
    ensures db.students == old(db.students) && db.classes == old(db.classes) && db.nextId == old(db.nextId)
  {
    var last := |db.users| - 1;
    FilterDropsOne(db.users, NotUser(u.id), last);
    assert db.users[last + 1..] == [];
    db.users := Filter(db.users, NotUser(u.id));
  }

  /** `pendingStudentRecord.save()` after setting its user, name and email. */
  method ClaimEntry(db: Database, k: nat, u: User)
    requires db.Valid()
    requires k < |db.students| && u.id < db.nextId && u.name != ""
    modifies db
    ensures db.Valid()
    ensures db.students == old(db.students)[k := Claimed(old(db.students)[k], u)]
    ensures db.sessions == old(db.sessions) && db.attendance == old(db.attendance)
    ensures db.users == old(db.users) && db.classes == old(db.classes) && db.nextId == old(db.nextId)
  {
    db.students := db.students[k := Claimed(db.students[k], u)];
  }

  /** The student branch after the account exists: reuse the unclaimed entry
      or create one whose teacher is the class's teacher; either way exactly
      one entry, at `k`, belongs to the new account. */
  method ClaimOrCreate(db: Database, u: User, pending: Option<nat>, enrollmentNumber: string,
                       classDoc: ClassDoc, now: int)
    returns (k: nat)
    requires db.Valid()
    requires u.id == db.nextId - 1
    requires forall i :: 0 <= i < |db.students| && db.students[i].user.Some? ==> db.students[i].user.value < u.id
    requires u.name != "" && enrollmentNumber != ""
    requires pending.Some? ==>
      pending.value < |db.students| &&
      db.students[pending.value].enrollmentNumber == enrollmentNumber && db.students[pending.value].cls == classDoc.id
    requires pending.None? ==> forall i :: 0 <= i < |db.students| ==>
      !(db.students[i].enrollmentNumber == enrollmentNumber && db.students[i].cls == classDoc.id)
    modifies db
    ensures db.Valid()
    ensures pending.Some? ==> k == pending.value && db.students == old(db.students)[k := Claimed(old(db.students)[k], u)]
    ensures pending.None? ==>
      k == |old(db.students)| &&
      db.students == old(db.students) + [NewStudent(old(db.nextId), u.name, Some(u.email), enrollmentNumber,
                                                    classDoc.id, classDoc.teacher, Some(u.id), now)]
    ensures k < |db.students| && db.students[k].user == Some(u.id)
    ensures db.students[k].cls == classDoc.id && db.students[k].enrollmentNumber == enrollmentNumber
    ensures forall j :: 0 <= j < |db.students| && j != k ==> db.students[j].user != Some(u.id)
    ensures db.sessions == old(db.sessions) && db.attendance == old(db.attendance)
    ensures db.users == old(db.users) && db.classes == old(db.classes)
  {
    if pending.Some? {
      k := pending.value;
      ClaimEntry(db, k, u);
    } else {
      k := |db.students|;
      var s := CreateStudent(db, u.name, Some(u.email), enrollmentNumber, classDoc.id, classDoc.teacher,
                             Some(u.id), now);
    }
  }

  /** The student branch once the class document is found: claim or create
      the roster entry, then build the payload, which holds just that entry's
      class. */
  method FinishStudent(db: Database, u: User, pending: Option<nat>, enrollmentNumber: string,
                       classDoc: ClassDoc, now: int)
    returns (reg: Registered)
    requires db.Valid()
    requires u.id == db.nextId - 1
    requires forall i :: 0 <= i < |db.students| && db.students[i].user.Some? ==> db.students[i].user.value < u.id
    requires u.name != "" && enrollmentNumber != ""
    requires pending.Some? ==>
      pending.value < |db.students| &&
      db.students[pending.value].enrollmentNumber == enrollmentNumber && db.students[pending.value].cls == classDoc.id
    requires pending.None? ==> forall i :: 0 <= i < |db.students| ==>
      !(db.students[i].enrollmentNumber == enrollmentNumber && db.students[i].cls == classDoc.id)
    requires FindClass(db.classes, classDoc.id) == Some(classDoc)
    modifies db
    ensures db.Valid()
    ensures pending.Some? ==> db.students == old(db.students)[pending.value := Claimed(old(db.students)[pending.value], u)]
    ensures pending.None? ==>
      db.students == old(db.students) + [NewStudent(old(db.nextId), u.name, Some(u.email), enrollmentNumber,
                                                    classDoc.id, classDoc.teacher, Some(u.id), now)]
    ensures reg.user == u && reg.classId == Some(classDoc.id) && reg.enrollmentNumber == Some(enrollmentNumber)
    ensures |reg.classes| == 1 && reg.classes[0].classId == classDoc.id
    ensures reg.classes ==
      [ClassEntry(classDoc.id, classDoc.name, classDoc.code, enrollmentNumber,
                  if pending.Some? then old(db.students)[pending.value].id else old(db.nextId))]
    ensures db.sessions == old(db.sessions) && db.attendance == old(db.attendance)
    ensures db.users == old(db.users) && db.classes == old(db.classes)
  {
    var k := ClaimOrCreate(db, u, pending, enrollmentNumber, classDoc, now);
    PayloadOfSoleRecord(db.students, db.classes, u.id, k);
    var payload := StudentClassPayload(db.students, db.classes, u.id);
    var studentClassId := Some(db.students[k].cls);
    var classIdOut := if payload.defaultClassId.Some? then payload.defaultClassId else studentClassId;
    reg := Registered(u, classIdOut, payload.classes, payload.enrollmentNumber);
  }

  /** `registerUser`: the checks of `Precheck`, then the account is created;
      a student whose class does not exist has it deleted again. */
  method RegisterUser(db: Database, name: string, email: string, emailWellFormed: bool, password: string,
                      role: string, enrollmentNumber: Option<string>, classId: Option<ObjectId>, now: int)
    returns (r: Result<Registered, RegisterError>)
    requires db.Valid()
    modifies db
    ensures db.Valid()
    ensures var pre := Precheck(old(db.users), old(db.students), name, emailWellFormed, password, email, role,
                                enrollmentNumber, classId);
      && (pre.Err? ==> r == Err(pre.error))
      && (r.Err? ==> pre.Err? || r == Err(ClassNotFound))
      && (pre.Ok? ==> (r == Err(ClassNotFound) <==> role == StudentRole && FindClass(db.classes, classId.value).None?))
      && (r.Ok? && role == StudentRole ==>
            var c := FindClass(db.classes, classId.value).value;
            && (pre.value.Some? ==>
                  db.students == old(db.students)[pre.value.value := Claimed(old(db.students)[pre.value.value], r.value.user)])
            && (pre.value.None? ==>
                  db.students == old(db.students) +
                    [NewStudent(old(db.nextId) + 1, name, Some(email), enrollmentNumber.value, c.id, c.teacher,
                                Some(old(db.nextId)), now)]))
    ensures r.Err? ==> db.users == old(db.users) && db.students == old(db.students)
    ensures r.Ok? ==> r.value.user == User(old(db.nextId), name, email, role) && db.users == old(db.users) + [r.value.user]
    ensures r.Ok? && role != StudentRole ==>
      db.students == old(db.students) && r.value.classId.None? && r.value.classes == [] && r.value.enrollmentNumber.None?
    ensures r.Ok? && role == StudentRole ==>
      r.value.classId == classId && r.value.enrollmentNumber == enrollmentNumber &&
      |r.value.classes| == 1 && r.value.classes[0].classId == classId.value
    ensures var pre := Precheck(old(db.users), old(db.students), name, emailWellFormed, password, email, role,
                                enrollmentNumber, classId);
      r.Ok? && role == StudentRole ==>
        var c := FindClass(db.classes, classId.value).value;
        r.value.classes ==
          [ClassEntry(c.id, c.name, c.code, enrollmentNumber.value,
                      if pre.value.Some? then old(db.students)[pre.value.value].id else old(db.nextId) + 1)]
    ensures db.sessions == old(db.sessions) && db.attendance == old(db.attendance) && db.classes == old(db.classes)
  {
    var pre := Precheck(db.users, db.students, name, emailWellFormed, password, email, role, enrollmentNumber, classId);
    if pre.Err? {
      return Err(pre.error);
    }
    var u := CreateUser(db, name, email, role);
    if role != StudentRole {
      return Ok(Registered(u, None, [], None));
    }
    var classDoc := FindClass(db.classes, classId.value);
    if classDoc.None? {
      DeleteNewUser(db, u);
      return Err(ClassNotFound);
    }
    assert classDoc.value.id == classId.value;
    var reg := FinishStudent(db, u, pre.value, enrollmentNumber.value, classDoc.value, now);
    r := Ok(reg);
  }
}

=== FILE: class_controller.dfy ===
/** The roster operations of controllers/classController.js: adding a
    student to a class (with the duplicate check and the link to an already
    registered account) and removing one (with its attendance in that
    class). */
module ClassController {
  import opened Models
  import opened Queries
  import opened Store

  /** The `400` rejections of `addStudentToClass`. */
  datatype AddError = MissingNameOrEnrollment | EnrollmentTaken

  /** The `404` rejection of `removeStudentFromClass`. */
  datatype RemoveError = NotInClass

  /** `a || b` on optional strings. */
  function Or(a: Option<string>, b: Option<string>): (r: Option<string>)
    ensures Truthy(a) ==> r == a
    ensures !Truthy(a) ==> r == b
  {
    if Truthy(a) then a else b
  }

  /** The filter `{ enrollmentNumber, user: { $ne: null } }`. */
  predicate LinkedWith(s: Student, enrollmentNumber: string)
  {
    s.enrollmentNumber == enrollmentNumber && s.user.Some?
  }

  /** `findOne({ enrollmentNumber, user: { $ne: null } }).sort({ createdAt: 1 })`:
      the linked roster entry with this enrollment number that was created
      first; among equal timestamps the one first in store order. */
  function EarliestLinked(ss: seq<Student>, enrollmentNumber: string): (r: Option<nat>)
    ensures r.None? <==> forall i :: 0 <= i < |ss| ==> !LinkedWith(ss[i], enrollmentNumber)
    ensures r.Some? ==> r.value < |ss| && LinkedWith(ss[r.value], enrollmentNumber)
    ensures r.Some? ==> forall j :: 0 <= j < |ss| && LinkedWith(ss[j], enrollmentNumber) ==> ss[r.value].createdAt <= ss[j].createdAt
    ensures r.Some? ==> forall j :: 0 <= j < r.value && LinkedWith(ss[j], enrollmentNumber) ==> ss[r.value].createdAt < ss[j].createdAt
  {
    if ss == [] then None
    else
      var rest := EarliestLinked(ss[1..], enrollmentNumber);
      if LinkedWith(ss[0], enrollmentNumber) && (rest.None? || ss[0].createdAt <= ss[1 + rest.value].createdAt) then Some(0)
      else if rest.None? then None
      else Some(1 + rest.value)
  }

  /** The filter `{ _id }` on users, for `populate('user')`. */
  function HasUserId(id: ObjectId): User -> bool
  {
    (u: User) => u.id == id
  }

  function FindUser(users: seq<User>, id: ObjectId): (r: Option<User>)
    ensures r.None? <==> forall i :: 0 <= i < |users| ==> users[i].id != id
    ensures r.Some? ==> r.value in users && r.value.id == id
  {
    match FirstIndex(users, HasUserId(id))
    case None => None
    case Some(k) => Some(users[k])
  }

  /** What a new roster entry inherits from the earliest registered entry
      with the same enrollment number: its account, email and name. */
  datatype Link = Link(user: Option<ObjectId>, email: Option<string>, name: Option<string>)

  /** `linkedStudent?.user?._id`, `linkedStudent?.email || linkedStudent?.user?.email`
      and `linkedStudent?.name || linkedStudent?.user?.name`, each `|| null`;
      a reference to a user document that no longer exists populates as null. */
  function LinkFor(students: seq<Student>, users: seq<User>, enrollmentNumber: string): (l: Link)
    ensures l.user.Some? ==> l.user.value in set u | u in users :: u.id
    ensures l.user.Some? ==>
      exists k :: 0 <= k < |students| && LinkedWith(students[k], enrollmentNumber) && students[k].user == l.user &&
        forall j :: 0 <= j < |students| && LinkedWith(students[j], enrollmentNumber) ==> students[k].createdAt <= students[j].createdAt
    ensures (forall i :: 0 <= i < |students| ==> !LinkedWith(students[i], enrollmentNumber)) ==> l == Link(None, None, None)
    ensures var e := EarliestLinked(students, enrollmentNumber);
      e.Some? ==>
        var s := students[e.value];
        var account := FindUser(users, s.user.value);
        && (account.Some? ==> l.user == s.user)
        && (account.None? ==> l.user.None?)
        && (Truthy(s.email) ==> l.email == s.email)
        && (!Truthy(s.email) ==> l.email == if account.Some? && account.value.email != "" then Some(account.value.email) else None)
        && (s.name != "" ==> l.name == Some(s.name))
        && (s.name == "" ==> l.name == if account.Some? && account.value.name != "" then Some(account.value.name) else None)
  {
    match EarliestLinked(students, enrollmentNumber)
    case None => Link(None, None, None)
    case Some(k) =>
      var s := students[k];
      var u := FindUser(users, s.user.value);
      Link(if u.Some? then Some(u.value.id) else None,
           Or(s.email, Or(if u.Some? then Some(u.value.email) else None, None)),
           Or(Some(s.name), Or(if u.Some? then Some(u.value.name) else None, None)))
  }

  /** `name || linkedName || 'Student'`. */
  function RosterName(name: string, linked: Option<string>): (r: string)
    ensures name != "" ==> r == name
    ensures name == "" && Truthy(linked) ==> r == linked.value
    ensures name == "" && !Truthy(linked) ==> r == "Student"
    ensures r != ""
  {
    if name != "" then name else if Truthy(linked) then linked.value else "Student"
  }

  /** `addStudentToClass`. The teacher is the caller; nothing checks that the
      teacher owns the class. */
  method AddStudentToClass(db: Database, classId: ObjectId, teacherId: ObjectId, name: string,
                           enrollmentNumber: string, now: int)
    returns (r: Result<Student, AddError>)
    requires db.Valid()
    modifies db
    ensures db.Valid()
    ensures r == Err(MissingNameOrEnrollment) <==> name == "" || enrollmentNumber == ""
    ensures r == Err(EnrollmentTaken) <==>
      name != "" && enrollmentNumber != "" &&
      exists i :: 0 <= i < |old(db.students)| && old(db.students)[i].enrollmentNumber == enrollmentNumber &&
                  old(db.students)[i].cls == classId
    ensures r.Err? ==> db.students == old(db.students) && db.nextId == old(db.nextId)
    ensures r.Ok? ==>
      var link := LinkFor(old(db.students), old(db.users), enrollmentNumber);
      r.value == NewStudent(old(db.nextId), name, link.email, enrollmentNumber, classId, teacherId, link.user, now) &&
      db.students == old(db.students) + [r.value]
    ensures db.sessions == old(db.sessions) && db.attendance == old(db.attendance)
    ensures db.users == old(db.users) && db.classes == old(db.classes)
  {
    if name == "" || enrollmentNumber == "" {
      return Err(MissingNameOrEnrollment);
    }
    var existing := FirstIndex(db.students, EnrolledIn(enrollmentNumber, classId));
    if existing.Some? {
      assert EnrolledIn(enrollmentNumber, classId)(db.students[existing.value]);
      return Err(EnrollmentTaken);
    }
    forall i | 0 <= i < |db.students|
      ensures (db.students[i].enrollmentNumber, db.students[i].cls, db.students[i].teacher) != (enrollmentNumber, classId, teacherId)
    {
      assert !EnrolledIn(enrollmentNumber, classId)(db.students[i]);
    }
    var link := LinkFor(db.students, db.users, enrollmentNumber);
    if link.user.Some? {
      var u :| u in db.users && u.id == link.user.value;
    }
    var student := CreateStudent(db, RosterName(name, link.name), link.email, enrollmentNumber, classId, teacherId,
                                 link.user, now);
    r := Ok(student);
  }

  /** The roster entry `{ _id, class, teacher }`. */
  function RosterEntry(studentId: ObjectId, cls: ObjectId, teacher: ObjectId): Student -> bool
  {
    (s: Student) => s.id == studentId && s.cls == cls && s.teacher == teacher
  }

  /** What `deleteMany({ student, class })` leaves. */
  function NotOf(studentId: ObjectId, cls: ObjectId): Attendance -> bool
  {
    (a: Attendance) => !(a.student == studentId && a.cls == cls)
  }

  /** What `deleteOne()` on the roster entry leaves. */
  function NotStudent(studentId: ObjectId): Student -> bool
  {
    (s: Student) => s.id != studentId
  }

  /** Deleting attendance records keeps the `_id`s unique and below the
      counter, and keeps at most one record per (student, session). */
  lemma DeleteKeepsAttendance(recs: seq<Attendance>, p: Attendance -> bool, n: nat)
    requires AttendanceWellFormed(recs, n)
    ensures AttendanceWellFormed(Filter(recs, p), n)
    ensures NoDuplicateMarks(recs) ==> NoDuplicateMarks(Filter(recs, p))
  {
    FilterKeepsEach(recs, p, (a: Attendance) => a.id < n);
    FilterKeepsPairwise(recs, p, (a: Attendance, b: Attendance) => a.id != b.id);
    if NoDuplicateMarks(recs) {
      FilterKeepsPairwise(recs, p, (a: Attendance, b: Attendance) => !SameMark(a, b));
    }
  }

  /** Deleting roster entries keeps the students' unique indexes. */
  lemma DeleteKeepsStudents(ss: seq<Student>, p: Student -> bool, n: nat)
    requires StudentsWellFormed(ss, n)
    ensures StudentsWellFormed(Filter(ss, p), n)
  {
    FilterKeepsEach(ss, p, (s: Student) => s.id < n && (s.user.Some? ==> s.user.value < n));
    FilterKeepsPairwise(ss, p, (s: Student, t: Student) =>
      s.id != t.id && (s.enrollmentNumber, s.cls, s.teacher) != (t.enrollmentNumber, t.cls, t.teacher));
  }

  /** `Attendance.deleteMany({ student, class })`. */
  method DeleteAttendanceOf(db: Database, studentId: ObjectId, classId: ObjectId)
    requires db.Valid()
    modifies db
    ensures db.Valid()
    ensures db.attendance == Filter(old(db.attendance), NotOf(studentId, classId))
    ensures db.sessions == old(db.sessions) && db.students == old(db.students) && db.users == old(db.users)
    ensures db.classes == old(db.classes) && db.nextId == old(db.nextId)
    ensures old(NoDuplicateMarks(db.attendance)) ==> NoDuplicateMarks(db.attendance)
  {
    DeleteKeepsAttendance(db.attendance, NotOf(studentId, classId), db.nextId);
    db.attendance := Filter(db.attendance, NotOf(studentId, classId));
  }

  /** `student.deleteOne()` on the entry at `k`. */
  method DeleteStudentAt(db: Database, k: nat)
    requires db.Valid() && k < |db.students|
    modifies db
    ensures db.Valid()
    ensures db.students == Filter(old(db.students), NotStudent(old(db.students)[k].id))
    ensures db.students == old(db.students)[..k] + old(db.students)[k + 1..]
    ensures db.sessions == old(db.sessions) && db.attendance == old(db.attendance) && db.users == old(db.users)
    ensures db.classes == old(db.classes) && db.nextId == old(db.nextId)
  {
    var id := db.students[k].id;
    DeleteKeepsStudents(db.students, NotStudent(id), db.nextId);
    OnlyOneWithId(db.students, k, db.nextId);
    db.students := Filter(db.students, NotStudent(id));
  }

  /** `removeStudentFromClass`: the entry must match `_id`, class and teacher
      at once; then that student's attendance in that class goes, then the
      entry itself. */
  method RemoveStudentFromClass(db: Database, classId: ObjectId, studentId: ObjectId, teacherId: ObjectId)
    returns (r: Result<(), RemoveError>)
    requires db.Valid()
    modifies db
    ensures db.Valid()
    ensures r.Err? <==>
      forall i :: 0 <= i < |old(db.students)| ==>
        !(old(db.students)[i].id == studentId && old(db.students)[i].cls == classId && old(db.students)[i].teacher == teacherId)
    ensures r.Err? ==> db.students == old(db.students) && db.attendance == old(db.attendance)
    ensures r.Ok? ==> db.attendance == Filter(old(db.attendance), NotOf(studentId, classId))
    ensures r.Ok? ==> forall a :: a in old(db.attendance) ==>
      (a in db.attendance <==> a.student != studentId || a.cls != classId)
    ensures r.Ok? ==> db.students == Filter(old(db.students), NotStudent(studentId))
    ensures r.Ok? ==> |db.students| == |old(db.students)| - 1
    ensures db.sessions == old(db.sessions) && db.users == old(db.users)
    ensures db.classes == old(db.classes) && db.nextId == old(db.nextId)
    ensures old(NoDuplicateMarks(db.attendance)) ==> NoDuplicateMarks(db.attendance)
  {
    var found := FirstIndex(db.students, RosterEntry(studentId, classId, teacherId));
    if found.None? {
      forall i | 0 <= i < |db.students|
        ensures !(db.students[i].id == studentId && db.students[i].cls == classId && db.students[i].teacher == teacherId)
      {
        assert !RosterEntry(studentId, classId, teacherId)(db.students[i]);
      }
      return Err(NotInClass);
    }
    var k := found.value;
    assert RosterEntry(studentId, classId, teacherId)(db.students[k]);
    DeleteAttendanceOf(db, studentId, classId);
    DeleteStudentAt(db, k);
    r := Ok(());
  }

  /** With unique `_id`s, deleting by `_id` removes exactly one entry and
      keeps the others in order. */
  lemma OnlyOneWithId(ss: seq<Student>, k: nat, n: nat)
    requires StudentsWellFormed(ss, n)
    requires k < |ss|
    ensures Filter(ss, NotStudent(ss[k].id)) == ss[..k] + ss[k + 1..]
  {
    FilterDropsOne(ss, NotStudent(ss[k].id), k);
  }
}

=== FILE: models.dfy ===
/** The documents of the three core Mongoose schemas (models/Session.js,
    models/Attendance.js, models/Student.js) and of the two collaborator
    collections the controllers read (users and classes). Every document
    carries its `_id`; references between documents are `_id`s. */
module Models {

  /** A document's `_id`, allocated by the store. */
  type ObjectId = nat

  datatype Option<+T> = None | Some(value: T)

  datatype Result<+T, +E> = Ok(value: T) | Err(error: E)

  /** A time-boxed attendance session of one class (models/Session.js).
      `createdAt` is the automatic timestamp used for "most recent" ordering;
      `date` defaults to the creation time. */
  datatype Session = Session(
    id: ObjectId,
    cls: ObjectId,
    teacher: ObjectId,
    sessionId: string,
    qrCode: string,
    lectureTiming: string,
    date: int,
    isActive: bool,
    expiresAt: int,
    createdAt: int)

  /** The `status` enum of models/Attendance.js: 'present' or 'absent'. */
  datatype Status = Present | Absent

  /** One attendance record (models/Attendance.js). `cls` and `teacher` are
      copied from the session when the record is made. */
  datatype Attendance = Attendance(
    id: ObjectId,
    student: ObjectId,
    session: ObjectId,
    cls: ObjectId,
    teacher: ObjectId,
    status: Status,
    scanTime: int,
    createdAt: int)

  /** One roster entry (models/Student.js): a student's membership of one
      class. `user` is absent for an entry no account has claimed yet. */
  datatype Student = Student(
    id: ObjectId,
    name: string,
    email: Option<string>,
    enrollmentNumber: string,
    cls: ObjectId,
    teacher: ObjectId,
    user: Option<ObjectId>,
    attendancePercentage: int,
    createdAt: int)

  /** A user account, as far as the controllers read it. */
  datatype User = User(id: ObjectId, name: string, email: string, role: string)

  /** A class document; the model only reads its name, code and teacher. */
  datatype ClassDoc = ClassDoc(id: ObjectId, name: string, code: string, teacher: ObjectId)

  /** A Session as `Session.create` stores it: `date` and the `createdAt`
      timestamp take the creation time. */
  function NewSession(id: ObjectId, cls: ObjectId, teacher: ObjectId, sessionId: string,
                      qrCode: string, lectureTiming: string, expiresAt: int, now: int): Session
  {
    Session(id, cls, teacher, sessionId, qrCode, lectureTiming, now, true, expiresAt, now)
  }

  /** An Attendance record as `Attendance.create` stores it: `scanTime`
      defaults to the creation time. */
  function NewAttendance(id: ObjectId, student: ObjectId, session: ObjectId, cls: ObjectId,
                         teacher: ObjectId, status: Status, now: int): Attendance
  {
    Attendance(id, student, session, cls, teacher, status, now, now)
  }

  /** A Student as `Student.create` stores it: `attendancePercentage`
      defaults to 0. */
  function NewStudent(id: ObjectId, name: string, email: Option<string>, enrollmentNumber: string,
                      cls: ObjectId, teacher: ObjectId, user: Option<ObjectId>, now: int): Student
  {
    Student(id, name, email, enrollmentNumber, cls, teacher, user, 0, now)
  }

  /** Mongoose's `required` validator refuses an empty string. */
  predicate SessionConforms(s: Session)
  {
    s.sessionId != "" && s.qrCode != "" && s.lectureTiming != ""
  }

  /** A JavaScript string that is neither missing nor empty. */
  predicate Truthy(s: Option<string>)
  {
    s.Some? && s.value != ""
  }
}

=== FILE: queries.dfy ===
/** The Mongo query primitives the controllers use, over a collection held
    as a sequence in natural (insertion) order: `findOne` is the first
    match, `find` keeps every match in order, `countDocuments` counts them. */
module Queries {
  import opened Models

  /** `findOne(filter)`: the index of the first document that matches. */
  function FirstIndex<T>(s: seq<T>, p: T -> bool): (r: Option<nat>)
    ensures r.None? <==> forall i :: 0 <= i < |s| ==> !p(s[i])
    ensures r.Some? ==> r.value < |s| && p(s[r.value])
    ensures r.Some? ==> forall j :: 0 <= j < r.value ==> !p(s[j])
  {
    if s == [] then None
    else if p(s[0]) then Some(0)
    else match FirstIndex(s[1..], p)
      case None => None
      case Some(i) => Some(i + 1)
  }

  /** `find(filter)`: every matching document, in natural order. */
  function Filter<T(!new)>(s: seq<T>, p: T -> bool): (r: seq<T>)
    ensures |r| <= |s|
    ensures forall x :: x in r <==> x in s && p(x)
  {
    if s == [] then [] else (if p(s[0]) then [s[0]] else []) + Filter(s[1..], p)
  }

  /** `countDocuments(filter)`. */
  function Count<T(!new)>(s: seq<T>, p: T -> bool): (n: nat)
    ensures n <= |s|
  {
    |Filter(s, p)|
  }

  lemma {:induction false} FilterAppend<T(!new)>(s: seq<T>, t: seq<T>, p: T -> bool)
    ensures Filter(s + t, p) == Filter(s, p) + Filter(t, p)
  {
    if s == [] {
      assert s + t == t;
    } else {
      assert (s + t)[1..] == s[1..] + t;
      FilterAppend(s[1..], t, p);
    }
  }

  /** Counting one more document adds one exactly when it matches. */
  lemma CountSnoc<T(!new)>(s: seq<T>, x: T, p: T -> bool)
    ensures Count(s + [x], p) == Count(s, p) + (if p(x) then 1 else 0)
  {
    FilterAppend(s, [x], p);
    assert [x][1..] == [];
  }

  /** Nothing matches, so nothing is counted. */
  lemma {:induction false} CountNone<T(!new)>(s: seq<T>, p: T -> bool)
    requires forall x :: x in s ==> !p(x)
    ensures Count(s, p) == 0
  {
    if s != [] {
      assert s[0] in s;
      CountNone(s[1..], p);
    }
  }

  /** The first document `find` returns is the one `findOne` returns. */
  lemma {:induction false} FilterHeadIsFirst<T(!new)>(s: seq<T>, p: T -> bool)
    ensures Filter(s, p) == [] <==> FirstIndex(s, p).None?
    ensures FirstIndex(s, p).Some? ==> Filter(s, p)[0] == s[FirstIndex(s, p).value]
  {
    if s != [] {
      var tail := s[1..];
      if p(s[0]) {
        assert Filter(s, p) == [s[0]] + Filter(tail, p);
      } else {
        FilterHeadIsFirst(tail, p);
        assert Filter(s, p) == Filter(tail, p);
        var f := FirstIndex(tail, p);
        if f.Some? {
          assert tail[f.value] == s[f.value + 1];
        }
      }
    }
  }

  /** When exactly one document matches, `find` returns just that one. */
  lemma {:induction false} FilterSingle<T(!new)>(s: seq<T>, p: T -> bool, k: nat)
    requires k < |s| && p(s[k])
    requires forall j :: 0 <= j < |s| && j != k ==> !p(s[j])
    ensures Filter(s, p) == [s[k]]
  {
    assert s == s[..k] + [s[k]] + s[k + 1..];
    FilterAppend(s[..k] + [s[k]], s[k + 1..], p);
    FilterAppend(s[..k], [s[k]], p);
    assert [s[k]][1..] == [];
    forall x | x in s[..k] ensures !p(x) {
      var i :| 0 <= i < k && s[i] == x;
    }
    forall x | x in s[k + 1..] ensures !p(x) {
      var i :| k + 1 <= i < |s| && s[i] == x;
    }
    CountNone(s[..k], p);
    CountNone(s[k + 1..], p);
  }

  /** When every document but the one at `k` matches, `find` drops just
      that one. */
  lemma {:induction false} FilterDropsOne<T(!new)>(s: seq<T>, p: T -> bool, k: nat)
    requires k < |s| && !p(s[k])
    requires forall j :: 0 <= j < |s| && j != k ==> p(s[j])
    ensures Filter(s, p) == s[..k] + s[k + 1..]
  {
    if k == 0 {
      AllMatchAfter(s, p, 0);
      FilterKeepsAll(s[1..], p);
    } else {
      TailDropsOne(s, p, k);
      FilterDropsOne(s[1..], p, k - 1);
      ConsSlices(s, k);
    }
  }

  lemma AllMatchAfter<T>(s: seq<T>, p: T -> bool, k: nat)
    requires k < |s|
    requires forall j :: 0 <= j < |s| && j != k ==> p(s[j])
    ensures forall x :: x in s[k + 1..] ==> p(x)
  {
    forall x | x in s[k + 1..] ensures p(x) {
      var i :| 0 <= i < |s| - k - 1 && s[k + 1..][i] == x;
      assert s[k + 1 + i] == x;
    }
  }

  lemma TailDropsOne<T>(s: seq<T>, p: T -> bool, k: nat)
    requires 0 < k < |s|
    requires forall j :: 0 <= j < |s| && j != k ==> p(s[j])
    ensures forall j :: 0 <= j < |s| - 1 && j != k - 1 ==> p(s[1..][j])
  {
    forall j | 0 <= j < |s| - 1 && j != k - 1 ensures p(s[1..][j]) {
      assert s[1..][j] == s[j + 1];
    }
  }

  lemma ConsSlices<T>(s: seq<T>, k: nat)
    requires 0 < k < |s|
    ensures s[..k] + s[k + 1..] == [s[0]] + (s[1..][..k - 1] + s[1..][k..])
  {
    assert s[1..][..k - 1] == s[1..k];
    assert s[1..][k..] == s[k + 1..];
    assert s[..k] == [s[0]] + s[1..k];
  }

  /** A filter that every document passes keeps the whole collection. */
  lemma {:induction false} FilterKeepsAll<T(!new)>(s: seq<T>, p: T -> bool)
    requires forall x :: x in s ==> p(x)
    ensures Filter(s, p) == s
  {
    if s != [] {
      FilterKeepsAll(s[1..], p);
    }
  }

  /** Two filters that agree on every document select the same documents. */
  lemma {:induction false} FilterCongruent<T(!new)>(s: seq<T>, p: T -> bool, q: T -> bool)
    requires forall x :: x in s ==> p(x) == q(x)
    ensures Filter(s, p) == Filter(s, q)
  {
    if s != [] {
      FilterCongruent(s[1..], p, q);
    }
  }

  /** A stricter filter never counts more. */
  lemma {:induction false} CountMonotone<T(!new)>(s: seq<T>, p: T -> bool, q: T -> bool)
    requires forall x :: q(x) ==> p(x)
    ensures Count(s, q) <= Count(s, p)
  {
    if s != [] {
      CountMonotone(s[1..], p, q);
    }
  }

  /** Filtering an already filtered collection is filtering by both. */
  lemma {:induction false} FilterFilter<T(!new)>(s: seq<T>, p: T -> bool, q: T -> bool, pq: T -> bool)
    requires forall x :: pq(x) == (p(x) && q(x))
    ensures Filter(Filter(s, p), q) == Filter(s, pq)
  {
    if s != [] {
      FilterAppend(if p(s[0]) then [s[0]] else [], Filter(s[1..], p), q);
      FilterFilter(s[1..], p, q, pq);
    }
  }

  /** A property every document has survives filtering. */
  lemma FilterKeepsEach<T(!new)>(s: seq<T>, p: T -> bool, q: T -> bool)
    requires forall i :: 0 <= i < |s| ==> q(s[i])
    ensures forall i :: 0 <= i < |Filter(s, p)| ==> q(Filter(s, p)[i])
  {
    forall i | 0 <= i < |Filter(s, p)| ensures q(Filter(s, p)[i]) {
      assert Filter(s, p)[i] in s;
    }
  }

  /** Filtering keeps the order of what it keeps, so a relation that holds
      between every earlier and later document still holds afterwards. */
  lemma {:induction false} FilterKeepsPairwise<T(!new)>(s: seq<T>, p: T -> bool, rel: (T, T) -> bool)
    requires forall i, j :: 0 <= i < j < |s| ==> rel(s[i], s[j])
    ensures forall i, j :: 0 <= i < j < |Filter(s, p)| ==> rel(Filter(s, p)[i], Filter(s, p)[j])
  {
    if s != [] {
      var t := s[1..];
      FilterKeepsPairwise(t, p, rel);
      var f := Filter(s, p);
      var ft := Filter(t, p);
      if p(s[0]) {
        assert f == [s[0]] + ft;
        forall i, j | 0 <= i < j < |f| ensures rel(f[i], f[j]) {
          if i == 0 {
            assert f[j] == ft[j - 1] && ft[j - 1] in t;
            var k :| 0 <= k < |t| && t[k] == ft[j - 1];
            assert s[k + 1] == t[k];
          } else {
            assert f[i] == ft[i - 1] && f[j] == ft[j - 1];
          }
        }
      } else {
        assert f == ft;
      }
    }
  }

  /** The filter `{ user }` on roster entries. */
  function HasUser(uid: ObjectId): Student -> bool
  {
    (s: Student) => s.user == Some(uid)
  }

  /** The filter `{ _id }` on classes. */
  function HasClassId(id: ObjectId): ClassDoc -> bool
  {
    (c: ClassDoc) => c.id == id
  }

  /** `Class.findById(id)`, and what `populate('class')` resolves a reference
      to: the class document, or `None` when no class has that `_id`. */
  function FindClass(classes: seq<ClassDoc>, id: ObjectId): (r: Option<ClassDoc>)
    ensures r.None? <==> forall i :: 0 <= i < |classes| ==> classes[i].id != id
    ensures r.Some? ==> r.value in classes && r.value.id == id
  {
    match FirstIndex(classes, HasClassId(id))
    case None => None
    case Some(k) => Some(classes[k])
  }

  /** The filter `{ enrollmentNumber, class }`. */
  function EnrolledIn(enrollmentNumber: string, cls: ObjectId): Student -> bool
  {
    (s: Student) => s.enrollmentNumber == enrollmentNumber && s.cls == cls
  }
}

=== FILE: session_controller.dfy ===
/** The session lifecycle of controllers/sessionController.js: creating a
    session (deactivate the class's active sessions, then insert the new one),
    reading the active session of a class (with lazy expiry) and ending a
    session by its public `sessionId`. The clock is the parameter `now`, in
    milliseconds; the random session token and the QR image are inputs. */
module SessionController {
  import opened Models
  import opened Queries
  import opened Store

  const MillisPerMinute: int := 60 * 1000
  const DefaultDurationMinutes: int := 60

  /** A session of class `cls` that is still flagged active. */
  predicate ActiveIn(s: Session, cls: ObjectId)
  {
    s.cls == cls && s.isActive
  }

  /** The sequential invariant: no class has two active sessions. */
  ghost predicate AtMostOneActivePerClass(ss: seq<Session>)
  {
    forall i, j :: 0 <= i < |ss| && 0 <= j < |ss| && ss[i].isActive && ss[j].isActive && ss[i].cls == ss[j].cls ==> i == j
  }

  /** The filter `{ sessionId }`. */
  function HasSessionId(sid: string): Session -> bool
  {
    (s: Session) => s.sessionId == sid
  }

  /** `durationMinutes || 60`: a missing or zero duration becomes an hour; a
      negative one is kept as it is. */
  function EffectiveDuration(durationMinutes: Option<int>): (d: int)
    ensures d != 0
    ensures durationMinutes.None? || durationMinutes == Some(0) ==> d == DefaultDurationMinutes
    ensures durationMinutes.Some? && durationMinutes.value != 0 ==> d == durationMinutes.value
  {
    if durationMinutes.None? || durationMinutes.value == 0 then DefaultDurationMinutes else durationMinutes.value
  }

  /** `Date.now() + duration * 60 * 1000`. */
  function ExpiresAt(now: int, durationMinutes: Option<int>): (t: int)
    ensures durationMinutes.None? || durationMinutes == Some(0) ==> t == now + 3_600_000
    ensures durationMinutes.Some? && durationMinutes.value != 0 ==> t == now + durationMinutes.value * 60_000
    ensures t > now <==> durationMinutes.None? || durationMinutes.value >= 0
    ensures t != now
  {
    now + EffectiveDuration(durationMinutes) * MillisPerMinute
  }

  /** `updateMany({ class, isActive: true }, { isActive: false })`. */
  function Deactivated(ss: seq<Session>, cls: ObjectId): (r: seq<Session>)
    ensures |r| == |ss|
    ensures forall i :: 0 <= i < |r| ==> !ActiveIn(r[i], cls)
    ensures forall i :: 0 <= i < |r| ==> r[i].(isActive := ss[i].isActive) == ss[i]
    ensures forall i :: 0 <= i < |r| && (ss[i].cls != cls || !ss[i].isActive) ==> r[i] == ss[i]
  {
    seq(|ss|, i requires 0 <= i < |ss| => if ActiveIn(ss[i], cls) then ss[i].(isActive := false) else ss[i])
  }

  /** `findOne({ class, isActive: true }).sort({ createdAt: -1 })`: the index
      of the active session of `cls` with the greatest `createdAt`; among
      equal timestamps the one inserted last. */
  function LatestActive(ss: seq<Session>, cls: ObjectId): (r: Option<nat>)
    ensures r.None? <==> forall i :: 0 <= i < |ss| ==> !ActiveIn(ss[i], cls)
    ensures r.Some? ==> r.value < |ss| && ActiveIn(ss[r.value], cls)
    ensures r.Some? ==> forall j :: 0 <= j < |ss| && ActiveIn(ss[j], cls) ==> ss[j].createdAt <= ss[r.value].createdAt
    ensures r.Some? ==> forall j :: r.value < j < |ss| && ActiveIn(ss[j], cls) ==> ss[j].createdAt < ss[r.value].createdAt
    decreases |ss|
  {
    if ss == [] then None
    else
      var last := |ss| - 1;
      var earlier := LatestActive(ss[..last], cls);
      if ActiveIn(ss[last], cls) && (earlier.None? || ss[earlier.value].createdAt <= ss[last].createdAt) then Some(last)
      else earlier
  }

  datatype Created = Created(sessionId: string, qrCode: string, lectureTiming: string, expiresAt: int)

  /** Every failure of `generateSessionQR` is a 500: the QR encoder threw, the
      schema refused the session, or the unique index on `sessionId` did. */
  datatype CreateError = QREncodingFailed | SessionValidationFailed | DuplicateSessionId

  /** The rejections of `getActiveSession`: `404` and `400`. */
  datatype ActiveError = NoActiveSession | SessionExpired

  datatype EndError = SessionNotFound

  /** The response of `getActiveSession`. */
  function ReadActive(ss: seq<Session>, cls: ObjectId, now: int): (r: Result<Session, ActiveError>)
    ensures r == Err(NoActiveSession) <==> forall i :: 0 <= i < |ss| ==> !ActiveIn(ss[i], cls)
    ensures r.Ok? ==> r.value in ss && ActiveIn(r.value, cls) && now <= r.value.expiresAt
    ensures r.Ok? ==> forall j :: 0 <= j < |ss| && ActiveIn(ss[j], cls) ==> ss[j].createdAt <= r.value.createdAt
    ensures r == Err(SessionExpired) ==> exists i :: 0 <= i < |ss| && ActiveIn(ss[i], cls) && ss[i].expiresAt < now
  {
    match LatestActive(ss, cls)
    case None => Err(NoActiveSession)
    case Some(k) => if ss[k].expiresAt < now then Err(SessionExpired) else Ok(ss[k])
  }

  /** The session store after `getActiveSession`: an expired latest session
      is flipped inactive (lazy expiry); any other read changes nothing. */
  function AfterReadActive(ss: seq<Session>, cls: ObjectId, now: int): (r: seq<Session>)
    ensures |r| == |ss|
    ensures ReadActive(ss, cls, now) != Err(SessionExpired) ==> r == ss
    ensures ReadActive(ss, cls, now) == Err(SessionExpired) ==>
      exists k :: 0 <= k < |ss| && ActiveIn(ss[k], cls) && ss[k].expiresAt < now && r == ss[k := ss[k].(isActive := false)]
  {
    match LatestActive(ss, cls)
    case None => ss
    case Some(k) => if ss[k].expiresAt < now then ss[k := ss[k].(isActive := false)] else ss
  }

  /** The session store after `endSession(sid)`: `findOneAndUpdate` clears
      `isActive` on the first session with that `sessionId`. */
  function EndedStore(ss: seq<Session>, sid: string): (r: seq<Session>)
    ensures |r| == |ss|
    ensures forall i :: 0 <= i < |r| ==> r[i].(isActive := ss[i].isActive) == ss[i]
    ensures forall i :: 0 <= i < |r| && ss[i].sessionId != sid ==> r[i] == ss[i]
    ensures forall i :: 0 <= i < |r| && ss[i].sessionId == sid && (forall j :: 0 <= j < i ==> ss[j].sessionId != sid) ==>
      !r[i].isActive
  {
    match FirstIndex(ss, HasSessionId(sid))
    case None => ss
    case Some(k) => ss[k := ss[k].(isActive := false)]
  }

  /** The response of `endSession(sid)`: the updated session (`new: true`),
      or not-found. */
  function EndResponse(ss: seq<Session>, sid: string): (r: Result<Session, EndError>)
    ensures r.Err? <==> forall i :: 0 <= i < |ss| ==> ss[i].sessionId != sid
    ensures r.Ok? ==> r.value.sessionId == sid && !r.value.isActive && r.value in EndedStore(ss, sid)
  {
    match FirstIndex(ss, HasSessionId(sid))
    case None => Err(SessionNotFound)
    case Some(k) => Ok(ss[k].(isActive := false))
  }

  /** Changing only `isActive` keeps the unique indexes of the sessions. */
  lemma ActiveFlagKeepsUnique(ss: seq<Session>, ts: seq<Session>, n: nat)
    requires SessionsWellFormed(ss, n)
    requires |ts| == |ss|
    requires forall i :: 0 <= i < |ts| ==> ts[i].(isActive := ss[i].isActive) == ss[i]
    ensures SessionsWellFormed(ts, n)
  {
    forall i | 0 <= i < |ts| ensures ts[i].id < n {
      assert ts[i].id == ss[i].id;
    }
    forall i, j | 0 <= i < j < |ts|
      ensures ts[i].id != ts[j].id && ts[i].sessionId != ts[j].sessionId
    {
      assert ts[i].id == ss[i].id && ts[i].sessionId == ss[i].sessionId;
      assert ts[j].id == ss[j].id && ts[j].sessionId == ss[j].sessionId;
    }
  }

  /** Clearing `isActive` flags never breaks the one-active-per-class rule. */
  lemma {:induction false} DeactivatingKeepsAtMostOne(ss: seq<Session>, ts: seq<Session>)
    requires AtMostOneActivePerClass(ss)
    requires |ts| == |ss|
    requires forall i :: 0 <= i < |ts| ==> ts[i].(isActive := ss[i].isActive) == ss[i] && (ts[i].isActive ==> ss[i].isActive)
    ensures AtMostOneActivePerClass(ts)
  {
    forall i, j | 0 <= i < |ts| && 0 <= j < |ts| && ts[i].isActive && ts[j].isActive && ts[i].cls == ts[j].cls
      ensures i == j
    {
      assert ts[i].cls == ss[i].cls && ts[j].cls == ss[j].cls;
    }
  }

  /** After a creation the new session is the only active session of its
      class, whatever the store held before. */
  lemma CreatedIsSoleActive(ss: seq<Session>, cls: ObjectId, s: Session)
    requires ActiveIn(s, cls)
    ensures forall i :: 0 <= i < |ss| + 1 && ActiveIn((Deactivated(ss, cls) + [s])[i], cls) ==> i == |ss|
  {
  }

  /** Creation keeps the one-active-per-class invariant. */
  lemma {:induction false} CreationKeepsAtMostOne(ss: seq<Session>, cls: ObjectId, s: Session)
    requires AtMostOneActivePerClass(ss)
    requires ActiveIn(s, cls)
    ensures AtMostOneActivePerClass(Deactivated(ss, cls) + [s])
  {
    var d := Deactivated(ss, cls);
    var ts := d + [s];
    DeactivatingKeepsAtMostOne(ss, d);
    forall i, j | 0 <= i < |ts| && 0 <= j < |ts| && ts[i].isActive && ts[j].isActive && ts[i].cls == ts[j].cls
      ensures i == j
    {
      if i < |d| && j < |d| {
        assert d[i].isActive && d[j].isActive && d[i].cls == d[j].cls;
      }
    }
  }

  /** Round trip: reading the active session right after creating one, at any
      time up to its expiry, returns the new session and changes nothing. */
  lemma {:induction false} ReadAfterCreate(ss: seq<Session>, cls: ObjectId, s: Session, t: int)
    requires ActiveIn(s, cls)
    requires t <= s.expiresAt
    ensures ReadActive(Deactivated(ss, cls) + [s], cls, t) == Ok(s)
    ensures AfterReadActive(Deactivated(ss, cls) + [s], cls, t) == Deactivated(ss, cls) + [s]
  {
    var ts := Deactivated(ss, cls) + [s];
    CreatedIsSoleActive(ss, cls, s);
    assert ActiveIn(ts[|ss|], cls);
    assert LatestActive(ts, cls) == Some(|ss|);
  }

  /** Expiry is strict: a read at exactly `expiresAt` still returns the
      session, a read one millisecond later reports it expired and flips it. */
  lemma {:induction false} ExpiryBoundary(ss: seq<Session>, cls: ObjectId, s: Session)
    requires ActiveIn(s, cls)
    ensures ReadActive(Deactivated(ss, cls) + [s], cls, s.expiresAt) == Ok(s)
    ensures ReadActive(Deactivated(ss, cls) + [s], cls, s.expiresAt + 1) == Err(SessionExpired)
    ensures AfterReadActive(Deactivated(ss, cls) + [s], cls, s.expiresAt + 1) == Deactivated(ss, cls) + [s.(isActive := false)]
  {
    var ts := Deactivated(ss, cls) + [s];
    ReadAfterCreate(ss, cls, s, s.expiresAt);
    assert LatestActive(ts, cls) == Some(|ss|);
    assert ts[|ss| := s.(isActive := false)] == Deactivated(ss, cls) + [s.(isActive := false)];
  }

  /** Lazy expiry keeps the one-active-per-class invariant. */
  lemma ReadKeepsAtMostOne(ss: seq<Session>, cls: ObjectId, now: int)
    requires AtMostOneActivePerClass(ss)
    ensures AtMostOneActivePerClass(AfterReadActive(ss, cls, now))
  {
    var r := AfterReadActive(ss, cls, now);
    if ReadActive(ss, cls, now) == Err(SessionExpired) {
      var k :| 0 <= k < |ss| && ActiveIn(ss[k], cls) && ss[k].expiresAt < now && r == ss[k := ss[k].(isActive := false)];
      DeactivatingKeepsAtMostOne(ss, r);
    }
  }

  /** Ending a session twice leaves the same store and gives the same
      response as ending it once. */
  lemma {:induction false} EndSessionIdempotent(ss: seq<Session>, sid: string)
    ensures EndedStore(EndedStore(ss, sid), sid) == EndedStore(ss, sid)
    ensures EndResponse(EndedStore(ss, sid), sid) == EndResponse(ss, sid)
  {
    var es := EndedStore(ss, sid);
    var p := HasSessionId(sid);
    assert forall i :: 0 <= i < |ss| ==> es[i].sessionId == ss[i].sessionId;
    match FirstIndex(ss, p)
    case None =>
    case Some(k) =>
      assert p(es[k]);
      assert FirstIndex(es, p) == Some(k);
  }

  /** Some stored session already carries this `sessionId`. */
  ghost predicate SessionIdTaken(ss: seq<Session>, sid: string)
  {
    exists i :: 0 <= i < |ss| && ss[i].sessionId == sid
  }

  /** Appending a session with a fresh `_id` and an unused `sessionId` keeps
      the unique indexes. */
  lemma AppendKeepsUnique(ss: seq<Session>, s: Session, nextId: nat)
    requires SessionsWellFormed(ss, nextId)
    requires s.id == nextId && !SessionIdTaken(ss, s.sessionId)
    ensures SessionsWellFormed(ss + [s], nextId + 1)
  {
  }

  /** `Session.updateMany({ class, isActive: true }, { $set: { isActive: false } })`. */
  method DeactivateClass(db: Database, classId: ObjectId)
    requires db.Valid()
    modifies db
    ensures db.Valid()
    ensures db.sessions == Deactivated(old(db.sessions), classId)
    ensures db.attendance == old(db.attendance) && db.students == old(db.students)
    ensures db.users == old(db.users) && db.classes == old(db.classes) && db.nextId == old(db.nextId)
    ensures old(AtMostOneActivePerClass(db.sessions)) ==> AtMostOneActivePerClass(db.sessions)
  {
    var before := db.sessions;
    var after := Deactivated(before, classId);
    ActiveFlagKeepsUnique(before, after, db.nextId);
    if AtMostOneActivePerClass(before) {
      DeactivatingKeepsAtMostOne(before, after);
    }
    db.sessions := after;
  }

  /** `Session.create(...)`: the schema's `required` validators run first,
      then the unique index on `sessionId`; on success the session is
      appended with a fresh `_id`. */
  method CreateSession(db: Database, classId: ObjectId, teacherId: ObjectId, sessionId: string, qrCode: string,
                       lectureTiming: string, expiresAt: int, now: int)
    returns (r: Result<Session, CreateError>)
    requires db.Valid()
    modifies db
    ensures db.Valid()
    ensures db.attendance == old(db.attendance) && db.students == old(db.students)
    ensures db.users == old(db.users) && db.classes == old(db.classes)
    ensures r != Err(QREncodingFailed)
    ensures r == Err(SessionValidationFailed) <==> sessionId == "" || qrCode == "" || lectureTiming == ""
    ensures r == Err(DuplicateSessionId) <==>
      sessionId != "" && qrCode != "" && lectureTiming != "" && SessionIdTaken(old(db.sessions), sessionId)
    ensures r.Err? ==> db.sessions == old(db.sessions) && db.nextId == old(db.nextId)
    ensures r.Ok? ==>
      r.value == NewSession(old(db.nextId), classId, teacherId, sessionId, qrCode, lectureTiming, expiresAt, now) &&
      db.sessions == old(db.sessions) + [r.value] && db.nextId == old(db.nextId) + 1
  {
    var s := NewSession(db.nextId, classId, teacherId, sessionId, qrCode, lectureTiming, expiresAt, now);
    if !SessionConforms(s) {
      return Err(SessionValidationFailed);
    }
    var taken := FirstIndex(db.sessions, HasSessionId(sessionId));
    if taken.Some? {
      assert HasSessionId(sessionId)(db.sessions[taken.value]);
      return Err(DuplicateSessionId);
    }
    assert !SessionIdTaken(db.sessions, sessionId) by {
      forall i | 0 <= i < |db.sessions| ensures db.sessions[i].sessionId != sessionId {
        assert !HasSessionId(sessionId)(db.sessions[i]);
      }
    }
    AppendKeepsUnique(db.sessions, s, db.nextId);
    RaiseNextId(db.sessions, db.attendance, db.students, db.users, db.nextId, db.nextId + 1);
    db.sessions := db.sessions + [s];
    db.nextId := db.nextId + 1;
    r := Ok(s);
  }

  /** `generateSessionQR`. `sessionId` is the token built from the class, the
      clock and three random bytes; `qrCode` is the encoder's output, `None`
      when it threw. The deactivation is written before the insert, so a
      failing insert leaves the class without an active session. */
  method GenerateSessionQR(db: Database, classId: ObjectId, teacherId: ObjectId, lectureTiming: string,
                           durationMinutes: Option<int>, now: int, sessionId: string, qrCode: Option<string>)
    returns (r: Result<Created, CreateError>)
    requires db.Valid()
    modifies db
    ensures db.Valid()
    ensures db.attendance == old(db.attendance) && db.students == old(db.students)
    ensures db.users == old(db.users) && db.classes == old(db.classes)
    ensures r == Err(QREncodingFailed) <==> qrCode.None?
    ensures qrCode.None? ==> r == Err(QREncodingFailed) && db.sessions == old(db.sessions) && db.nextId == old(db.nextId)
    ensures qrCode.Some? && r.Err? ==> db.sessions == Deactivated(old(db.sessions), classId)
    ensures qrCode.Some? ==>
      (r == Err(SessionValidationFailed) <==> lectureTiming == "" || sessionId == "" || qrCode.value == "")
    ensures r == Err(DuplicateSessionId) <==>
      qrCode.Some? && lectureTiming != "" && sessionId != "" && qrCode.value != "" && SessionIdTaken(old(db.sessions), sessionId)
    ensures r.Ok? ==>
      r.value == Created(sessionId, qrCode.value, lectureTiming, ExpiresAt(now, durationMinutes)) &&
      db.sessions == Deactivated(old(db.sessions), classId) +
        [NewSession(old(db.nextId), classId, teacherId, sessionId, qrCode.value, lectureTiming, r.value.expiresAt, now)]
    ensures r.Ok? ==> forall i :: 0 <= i < |db.sessions| && ActiveIn(db.sessions[i], classId) ==> i == |db.sessions| - 1
    ensures old(AtMostOneActivePerClass(db.sessions)) ==> AtMostOneActivePerClass(db.sessions)
  {
    if qrCode.None? {
      return Err(QREncodingFailed);
    }
    var expiresAt := ExpiresAt(now, durationMinutes);
    ghost var before := db.sessions;
    DeactivateClass(db, classId);
    assert forall i :: 0 <= i < |before| ==> db.sessions[i].sessionId == before[i].sessionId;
    var created := CreateSession(db, classId, teacherId, sessionId, qrCode.value, lectureTiming, expiresAt, now);
    match created
    case Err(e) =>
      r := Err(e);
    case Ok(s) =>
      CreatedIsSoleActive(before, classId, s);
      if AtMostOneActivePerClass(before) {
        CreationKeepsAtMostOne(before, classId, s);
      }
      r := Ok(Created(sessionId, qrCode.value, lectureTiming, expiresAt));
  }

  /** `getActiveSession`: the most recent active session of the class, unless
      it has expired, in which case it is flipped inactive. */
  method GetActiveSession(db: Database, classId: ObjectId, now: int) returns (r: Result<Session, ActiveError>)
    requires db.Valid()
    modifies db
    ensures db.Valid()
    ensures r == ReadActive(old(db.sessions), classId, now)
    ensures db.sessions == AfterReadActive(old(db.sessions), classId, now)
    ensures db.attendance == old(db.attendance) && db.students == old(db.students)
    ensures db.users == old(db.users) && db.classes == old(db.classes) && db.nextId == old(db.nextId)
    ensures old(AtMostOneActivePerClass(db.sessions)) ==> AtMostOneActivePerClass(db.sessions)
  {
    var latest := LatestActive(db.sessions, classId);
    if latest.None? {
      return Err(NoActiveSession);
    }
    var k := latest.value;
    var s := db.sessions[k];
    if s.expiresAt < now {
      var before := db.sessions;
      db.sessions := db.sessions[k := s.(isActive := false)];
      ActiveFlagKeepsUnique(before, db.sessions, db.nextId);
      if AtMostOneActivePerClass(before) {
        ReadKeepsAtMostOne(before, classId, now);
      }
      return Err(SessionExpired);
    }
    r := Ok(s);
  }

  /** `endSession`: clear `isActive` on the session with this `sessionId`;
      repeating it is harmless (`EndSessionIdempotent`). */
  method EndSession(db: Database, sessionId: string) returns (r: Result<Session, EndError>)
    requires db.Valid()
    modifies db
    ensures db.Valid()
    ensures r == EndResponse(old(db.sessions), sessionId)
    ensures db.sessions == EndedStore(old(db.sessions), sessionId)
    ensures db.attendance == old(db.attendance) && db.students == old(db.students)
    ensures db.users == old(db.users) && db.classes == old(db.classes) && db.nextId == old(db.nextId)
    ensures old(AtMostOneActivePerClass(db.sessions)) ==> AtMostOneActivePerClass(db.sessions)
  {
    var before := db.sessions;
    var found := FirstIndex(db.sessions, HasSessionId(sessionId));
    if found.None? {
      return Err(SessionNotFound);
    }
    var k := found.value;
    var updated := db.sessions[k].(isActive := false);
    db.sessions := db.sessions[k := updated];
    ActiveFlagKeepsUnique(before, db.sessions, db.nextId);
    if AtMostOneActivePerClass(before) {
      DeactivatingKeepsAtMostOne(before, db.sessions);
    }
    r := Ok(updated);
  }
}

=== FILE: store.dfy ===
/** The database as the controllers see it: one collection per Mongoose
    model, each a sequence in natural order, plus the counter that hands out
    fresh `_id`s. `Valid` holds the unique indexes the schemas declare and
    says that every `_id` handed out so far is below the counter. */
module Store {
  import opened Models

  /** `_id` is unique within the sessions, and so is `sessionId` (the
      `unique: true` of models/Session.js). */
  ghost predicate SessionsWellFormed(ss: seq<Session>, nextId: nat)
  {
    && (forall i :: 0 <= i < |ss| ==> ss[i].id < nextId)
    && (forall i, j :: 0 <= i < j < |ss| ==> ss[i].id != ss[j].id && ss[i].sessionId != ss[j].sessionId)
  }

  /** Attendance has a unique `_id` only: the schema declares no index on
      (student, session). */
  ghost predicate AttendanceWellFormed(recs: seq<Attendance>, nextId: nat)
  {
    && (forall i :: 0 <= i < |recs| ==> recs[i].id < nextId)
    && (forall i, j :: 0 <= i < j < |recs| ==> recs[i].id != recs[j].id)
  }

  /** `_id` is unique, and so is (enrollmentNumber, class, teacher): the
      compound unique index of models/Student.js. The schema's `required`
      `name` and `enrollmentNumber` are non-empty. A linked `user` is an `_id`
      already handed out. */
  ghost predicate StudentsWellFormed(ss: seq<Student>, nextId: nat)
  {
    && (forall i :: 0 <= i < |ss| ==> ss[i].id < nextId)
    && (forall i :: 0 <= i < |ss| && ss[i].user.Some? ==> ss[i].user.value < nextId)
    && (forall i :: 0 <= i < |ss| ==> ss[i].name != "" && ss[i].enrollmentNumber != "")
    && (forall i, j :: 0 <= i < j < |ss| ==>
          ss[i].id != ss[j].id &&
          (ss[i].enrollmentNumber, ss[i].cls, ss[i].teacher) != (ss[j].enrollmentNumber, ss[j].cls, ss[j].teacher))
  }

  ghost predicate UsersWellFormed(us: seq<User>, nextId: nat)
  {
    && (forall i :: 0 <= i < |us| ==> us[i].id < nextId)
    && (forall i, j :: 0 <= i < j < |us| ==> us[i].id != us[j].id)
  }

  /** Handing out an `_id` keeps every collection well formed. */
  lemma RaiseNextId(ss: seq<Session>, recs: seq<Attendance>, st: seq<Student>, us: seq<User>, n: nat, m: nat)
    requires n <= m
    ensures SessionsWellFormed(ss, n) ==> SessionsWellFormed(ss, m)
    ensures AttendanceWellFormed(recs, n) ==> AttendanceWellFormed(recs, m)
    ensures StudentsWellFormed(st, n) ==> StudentsWellFormed(st, m)
    ensures UsersWellFormed(us, n) ==> UsersWellFormed(us, m)
  {
  }

  class Database {
    var sessions: seq<Session>
    var attendance: seq<Attendance>
    var students: seq<Student>
    var users: seq<User>
    /** Read-only here: class documents are written by code outside the model. */
    var classes: seq<ClassDoc>
    /** The next `_id` to hand out. */
    var nextId: nat

    ghost predicate Valid()
      reads this
    {
      && SessionsWellFormed(sessions, nextId)
      && AttendanceWellFormed(attendance, nextId)
      && StudentsWellFormed(students, nextId)
      && UsersWellFormed(users, nextId)
    }

    constructor (classes: seq<ClassDoc>)
      ensures Valid()
      ensures this.classes == classes
      ensures sessions == [] && attendance == [] && students == [] && users == []
    {
      this.classes := classes;
      sessions, attendance, students, users := [], [], [], [];
      nextId := 0;
    }
  }

  /** `Student.create(...)`: append a roster entry with a fresh `_id`. Both
      callers have already ruled out a clash on the compound unique key and
      an empty name or enrollment number (so the `required` validators pass),
      and link only a `user` whose `_id` has been handed out. */
  method CreateStudent(db: Database, name: string, email: Option<string>, enrollmentNumber: string,
                       cls: ObjectId, teacher: ObjectId, user: Option<ObjectId>, now: int)
    returns (s: Student)
    requires db.Valid()
    requires forall i :: 0 <= i < |db.students| ==>
      (db.students[i].enrollmentNumber, db.students[i].cls, db.students[i].teacher) != (enrollmentNumber, cls, teacher)
    requires user.Some? ==> user.value < db.nextId
    requires name != "" && enrollmentNumber != ""
    modifies db
    ensures db.Valid()
    ensures s == NewStudent(old(db.nextId), name, email, enrollmentNumber, cls, teacher, user, now)
    ensures db.students == old(db.students) + [s] && db.nextId == old(db.nextId) + 1
    ensures db.sessions == old(db.sessions) && db.attendance == old(db.attendance)
    ensures db.users == old(db.users) && db.classes == old(db.classes)
  {
    s := NewStudent(db.nextId, name, email, enrollmentNumber, cls, teacher, user, now);
    RaiseNextId(db.sessions, db.attendance, db.students, db.users, db.nextId, db.nextId + 1);
    db.students := db.students + [s];
    db.nextId := db.nextId + 1;
  }

  /** Two records for the same student in the same session. */
  predicate SameMark(a: Attendance, b: Attendance)
  {
    a.student == b.student && a.session == b.session
  }

  /** The sequential invariant of the recorder: at most one record per
      (student, session). No index enforces it; only the check of
      `markAttendance` does. */
  ghost predicate NoDuplicateMarks(recs: seq<Attendance>)
  {
    forall i, j :: 0 <= i < j < |recs| ==> !SameMark(recs[i], recs[j])
  }
}

=== FILE: student_controller.dfy ===
/** The teacher's roster view of controllers/studentController.js: every
    student of a class with the counts behind their attendance percentage. */
module StudentController {
  import opened Models
  import opened Queries

  /** The number of records of a student, and how many of them are
      `present`; the percentage is `present / total * 100`, or 0 when there
      are no records. */
  datatype Tally = Tally(total: nat, present: nat)

  /** One line of the response. */
  datatype StudentRow = StudentRow(id: ObjectId, name: string, email: Option<string>,
                                   enrollmentNumber: string, tally: Tally)

  /** `Student.find({ class, teacher })`. */
  function OnRoster(cls: ObjectId, teacher: ObjectId): Student -> bool
  {
    (s: Student) => s.cls == cls && s.teacher == teacher
  }

  function Roster(students: seq<Student>, cls: ObjectId, teacher: ObjectId): (r: seq<Student>)
    ensures forall s :: s in r <==> s in students && s.cls == cls && s.teacher == teacher
  {
    Filter(students, OnRoster(cls, teacher))
  }

  function Ids(roster: seq<Student>): (ids: set<ObjectId>)
    ensures forall s :: s in roster ==> s.id in ids
    ensures forall k :: k in ids ==> exists s :: s in roster && s.id == k
  {
    set s | s in roster :: s.id
  }

  /** `Attendance.find({ student: { $in: studentIds }, class })`. */
  function Fetched(ids: set<ObjectId>, cls: ObjectId): Attendance -> bool
  {
    (a: Attendance) => a.student in ids && a.cls == cls
  }

  function ByStudent(k: ObjectId): Attendance -> bool
  {
    (a: Attendance) => a.student == k
  }

  /** `rec.status.toLowerCase() === 'present'`; the enum leaves only one
      spelling. */
  function PresentBy(k: ObjectId): Attendance -> bool
  {
    (a: Attendance) => a.student == k && a.status == Present
  }

  /** The records the loop has seen for student `k`, counted. */
  function TallyIn(recs: seq<Attendance>, k: ObjectId): (t: Tally)
    ensures t.present <= t.total <= |recs|
  {
    CountMonotone(recs, ByStudent(k), PresentBy(k));
    Tally(Count(recs, ByStudent(k)), Count(recs, PresentBy(k)))
  }

  /** `attendanceByStudent[id] || { total: 0, present: 0 }`. */
  function TallyOf(m: map<ObjectId, Tally>, k: ObjectId): (t: Tally)
    ensures k in m ==> t == m[k]
    ensures k !in m ==> t.total == 0 && t.present == 0
  {
    if k in m then m[k] else Tally(0, 0)
  }

  /** The `for (const rec of attendanceRecords)` loop: one entry per student
      that has a record, holding how many records it has and how many are
      `present`. */
  method TallyByStudent(recs: seq<Attendance>) returns (m: map<ObjectId, Tally>)
    ensures forall k :: TallyOf(m, k) == TallyIn(recs, k)
    ensures forall k :: k in m ==> m[k].total > 0
  {
    m := map[];
    var i := 0;
    while i < |recs|
      invariant 0 <= i <= |recs|
      invariant forall k :: TallyOf(m, k) == TallyIn(recs[..i], k)
      invariant forall k :: k in m ==> m[k].total > 0
    {
      var rec := recs[i];
      var key := rec.student;
      var t := if key in m then m[key] else Tally(0, 0);
      t := t.(total := t.total + 1);
      if rec.status == Present {
        t := t.(present := t.present + 1);
      }
      assert recs[..i + 1] == recs[..i] + [rec];
      var m' := m[key := t];
      forall k
        ensures TallyOf(m', k) == TallyIn(recs[..i + 1], k)
      {
        CountSnoc(recs[..i], rec, ByStudent(k));
        CountSnoc(recs[..i], rec, PresentBy(k));
        assert TallyOf(m, k) == TallyIn(recs[..i], k);
      }
      m := m';
      i := i + 1;
    }
    assert recs[..i] == recs;
  }

  /** The counts for one student of the class, over the whole attendance
      store. */
  function ClassTally(attendance: seq<Attendance>, k: ObjectId, cls: ObjectId): (t: Tally)
    ensures t.present <= t.total <= |attendance|
  {
    TallyIn(Filter(attendance, InClassOf(cls)), k)
  }

  function InClassOf(cls: ObjectId): Attendance -> bool
  {
    (a: Attendance) => a.cls == cls
  }

  function RowOf(s: Student, t: Tally): StudentRow
  {
    StudentRow(s.id, s.name, s.email, s.enrollmentNumber, t)
  }

  /** Counting the fetched records of a rostered student gives the same as
      counting that student's records in the class. */
  lemma FetchedTallyIsClassTally(attendance: seq<Attendance>, ids: set<ObjectId>, cls: ObjectId, k: ObjectId)
    requires k in ids
    ensures TallyIn(Filter(attendance, Fetched(ids, cls)), k) == ClassTally(attendance, k, cls)
  {
    var both := (a: Attendance) => a.student == k && a.cls == cls;
    var bothPresent := (a: Attendance) => a.student == k && a.status == Present && a.cls == cls;
    FilterFilter(attendance, Fetched(ids, cls), ByStudent(k), both);
    FilterFilter(attendance, InClassOf(cls), ByStudent(k), both);
    FilterFilter(attendance, Fetched(ids, cls), PresentBy(k), bothPresent);
    FilterFilter(attendance, InClassOf(cls), PresentBy(k), bothPresent);
  }

  /** `getClassStudentsWithAttendance`: one row per student of the class and
      teacher, in roster order, each with that student's counts in the
      class. */
  method ClassStudentsWithAttendance(students: seq<Student>, attendance: seq<Attendance>,
                                     classId: ObjectId, teacherId: ObjectId)
    returns (rows: seq<StudentRow>)
    ensures |rows| == |Roster(students, classId, teacherId)|
    ensures forall i :: 0 <= i < |rows| ==>
      var s := Roster(students, classId, teacherId)[i];
      rows[i] == RowOf(s, ClassTally(attendance, s.id, classId))
    ensures forall i :: 0 <= i < |rows| ==> rows[i].tally.present <= rows[i].tally.total
  {
    var roster := Roster(students, classId, teacherId);
    if |roster| == 0 {
      return [];
    }
    var ids := Ids(roster);
    var fetched := Filter(attendance, Fetched(ids, classId));
    var m := TallyByStudent(fetched);
    rows := seq(|roster|, i requires 0 <= i < |roster| => RowOf(roster[i], TallyOf(m, roster[i].id)));
    forall i | 0 <= i < |rows|
      ensures rows[i] == RowOf(roster[i], ClassTally(attendance, roster[i].id, classId))
    {
      FetchedTallyIsClassTally(attendance, ids, classId, roster[i].id);
    }
  }

  /** A student without records in the class gets zero of each, hence a
      percentage of 0. */
  lemma UnrecordedStudentGetsZeros(attendance: seq<Attendance>, k: ObjectId, cls: ObjectId)
    requires forall a :: a in attendance ==> !(a.student == k && a.cls == cls)
    ensures ClassTally(attendance, k, cls) == Tally(0, 0)
  {
    var inClass := Filter(attendance, InClassOf(cls));
    CountNone(inClass, ByStudent(k));
    CountNone(inClass, PresentBy(k));
  }

  /** A student counted as present somewhere has at least one record. */
  lemma PresentNeedsARecord(attendance: seq<Attendance>, k: ObjectId, cls: ObjectId)
    requires ClassTally(attendance, k, cls).present > 0
    ensures exists a :: a in attendance && a.student == k && a.cls == cls && a.status == Present
  {
    var inClass := Filter(attendance, InClassOf(cls));
    if forall a :: a in inClass ==> !PresentBy(k)(a) {
      CountNone(inClass, PresentBy(k));
    } else {
      var a :| a in inClass && PresentBy(k)(a);
    }
  }
}
